=== FILE: README.md ===
# ELN / Rawhide version-diff model

A Dafny model of the version-diff core of `eln-periodic`, the Fedora ELN
tooling that compares the builds tagged in two build-system tags (Rawhide
and ELN, or any two of Rawhide, ELN and RHEL) and decides, per package,
whether the second branch is up to date, behind or missing a build, and
which Rawhide builds must be rebuilt for ELN.

The model covers the two comparison tools:

- `compare.py`: the epoch/version/release key with dist-tag stripping
  (`evr`), `compare_builds`, the `BuildSource` cache (`get_build`,
  `make_cache`) and the `Comparison` engine (`status` table,
  `compare_one`, `compare_all`, `count`).
- `eln-check.py`: the same `evr`, `no_dist_nvr`, `is_higher`,
  `is_excluded`, `is_on_hold`, `diff_with_rawhide`, the per-package status
  and rebuild decisions of its two main loops, and the status-webpage
  counters.

Modules (one file each):

| file | module | models |
|---|---|---|
| wrappers.dfy | Wrappers | `Option`, the stand-in for Python's `None` |
| dist_tag.dfy | DistTag | `re.sub(".(fc|eln)[0-9]*", "", release)` as a left-to-right scan |
| builds.dfy | Builds | build records, the `listTagged` query, `evr`, `compare_builds`, `is_higher` |
| build_source.dfy | BuildSources | `BuildSource` and its cache |
| comparison.dfy | Comparisons | the `Comparison` engine |
| policy.dfy | Policy | `is_excluded`, `is_on_hold`, the buildable list, `no_dist_nvr` |
| eln_check.dfy | ElnCheck | `diff_with_rawhide`, the two main loops, the webpage counters |

External collaborators become parameters:

- `rpm.labelCompare` (a C library) is a parameter of type
  `LabelCompare = (Evr, Evr) -> Sign`, any function returning -1, 0 or 1.
  Lemmas that need reflexivity (`cmp(e, e) == 0`) or antisymmetry
  (`cmp(a, b) == -cmp(b, a)`) take it as a hypothesis.
- Koji/Brew `listTagged(tag, package=..., latest=True)` is a parameter of
  type `Infra = (string, Option<string>) -> seq<Build>`; `None` as the
  package stands for the bulk listing of the whole tag.
- The Rawhide tag name (`getFullInheritance('rawhide')[0]['name']`) and
  the content-resolver package set are plain parameters.

In these places the model follows the code as written:

- `BuildSource.get_build` does not store what it fetches on a cache miss
  (compare.py:61-66); only `make_cache` fills the cache.
- `compare_one` never writes to `results`; only `compare_all` does.
- The `.` of the dist-tag pattern is unescaped, so it matches any
  character but a newline. `DistTag.UnescapedDotForgetsLeader` shows the
  effect: `1.gitafc3` and `1.gitbfc3` both strip to `1.git`.
- The second loop of eln-check.py (lines 264-274) queues a rebuild only
  for a package with no ELN build. An OLD package found there is reported
  but not queued. In practice that branch is only reached when the ELN tag
  changes between the bulk listing and the per-package query, because
  every package with an ELN build is handled by the first loop.
- eln-check.py:195 reads `package_name not is_on_hold(package_name)`,
  which is a syntax error, so the script does not parse as written.
  `Policy.Buildable` models the evident reading: keep a package that is
  neither on hold nor excluded.

## Model

| member | source | states |
|---|---|---|
| DistTag.DigitRun | compare.py:216 | `[0-9]*` takes the longest run of ASCII digits: all digits inside the run, and the character after it is not a digit |
| DistTag.MatchLength | compare.py:216 | the pattern matches at a position exactly when a non-newline character is followed by `fc` or `eln`; a match is at least three characters and stays inside the string |
| DistTag.MatchLengthOfDistTag | compare.py:216 | a match is exactly the leader, the marker and the whole digit run behind it: it ends at the first character that is not a digit |
| DistTag.Strip | compare.py:216-217 | the stripped release is never longer than the input, and a release with a match at its start loses at least three characters |
| DistTag.StripIsSubsequence | compare.py:216-217 | stripping only deletes characters: the kept characters stay in their original order |
| DistTag.StripUnchangedIff | compare.py:216-217 | the release comes back unchanged exactly when no position of it starts a match |
| DistTag.StripShrinksOnMatch | compare.py:216-217 | a release with a match anywhere loses at least three characters |
| DistTag.MarkerFreeUnchanged | compare.py:216-217 | a release containing neither `fc` nor `eln` comes back unchanged |
| DistTag.StripMatchFreePrefix | compare.py:216-217 | a match-free prefix followed by a character that cannot complete a marker passes through the scan untouched |
| DistTag.StripWholeMatch | compare.py:216 | one non-newline character, `fc`/`eln` and a digit run are removed as one whole match |
| DistTag.StripMatchThenRest | compare.py:216-217 | after a match, the scan resumes right behind its digit run: the text that follows is stripped on its own, so nothing after a match is lost |
| DistTag.StripDistTagInside | compare.py:216-217 | a dist tag in the middle of a release is removed, the match-free text before it is kept, and the text after it is kept and scanned for further dist tags |
| DistTag.StripJoin | compare.py:216-217 | stripping a release split before a character that is neither a marker character nor a digit strips each part on its own and joins the results |
| DistTag.StripDropsDistSuffix | compare.py:216-217 | a trailing `.fc<digits>` or `.eln<digits>` is dropped whatever the release before it holds |
| DistTag.StripDistSuffix | compare.py:216-217 | a release `r.fc<digits>` or `r.eln<digits>` strips to `r` when `r` has no match of its own |
| DistTag.StripFcExample | compare.py:216-217 | `1.fc34` strips to `1` |
| DistTag.StripInnerExample | compare.py:216-217 | `1.fc34.1` strips to `1.1`: the text after the dist tag is kept |
| DistTag.StripElExample | compare.py:216-217 | `1.el9` is left unchanged, since `el` followed by a digit is not a marker |
| DistTag.UnescapedDotForgetsLeader | compare.py:216 | the unescaped `.` drops whatever character precedes a marker, so releases that differ only in that character strip alike |
| Builds.LatestTagged | compare.py:61-66 | a per-package query answers `None` exactly when the listing is empty, and otherwise its first build |
| Builds.EvrOf | compare.py:203-219 | `evr` pins the epoch to "0", keeps the version, and gives as release exactly the left-to-right removal of every dist-tag match (a non-newline character, then `fc` or `eln`, then a digit run) (`DistTag.Strip`), which is a subsequence of the original and no longer than it |
| Builds.EvrOfInnerDistTag | compare.py:203-219 | a build with release `1.fc34.1` gets key `("0", version, "1.1")`: the dist tag is dropped and the text after it kept |
| Builds.EvrIgnoresEpoch | compare.py:213 | the build's own epoch never affects its key |
| Builds.EvrDropsDistTag | eln-check.py:31-43 | a release ending in `.fcNN`/`.elnNN` gives the same key as the release without it, whatever that release holds; when it holds no match itself, the key's release is that release (eln-check.py's `evr` is the same function) |
| Builds.CompareBuilds | compare.py:222-231 | `compare_builds` answers 1 exactly when `is_higher` holds for the two builds' keys |
| Builds.CompareBuildsSeesOnlyKey | compare.py:222-231 | builds that agree on version and dist-stripped release compare alike, whatever their names, epochs, nvrs and ids |
| Builds.IsHigher | eln-check.py:46-47 | a key is higher exactly when labelCompare answers 1 |
| Builds.SameModuloEpochAndDistTag | compare.py:222-231 | with a reflexive labelCompare, builds differing only in epoch and dist tag compare 0, and neither is higher |
| Builds.CompareBuildsSwap | eln-check.py:46-47 | with an antisymmetric labelCompare, swapping the builds negates `compare_builds`, and `is_higher` one way is `-1` the other way |
| BuildSources.Fill | compare.py:72-74 | the cache gains exactly the listed names and keeps every other key |
| BuildSources.FillKeepsLast | compare.py:72-74 | each listed name ends up mapped to the last build of that name in the listing, since later writes overwrite earlier ones |
| BuildSources.MakeCache | compare.py:68-75 | `make_cache` fills the cache from the tag's bulk listing: listed names map to the last build of that name, other keys are untouched, and the backing system is kept for later misses |
| BuildSources.Create | compare.py:17-32 | a new source keeps the given backing system and tag; its cache starts empty, and with bulk caching holds exactly the listed names, each mapped to its last build in the listing |
| BuildSources.GetBuild | compare.py:51-66 | a cached package is answered from the cache; otherwise the answer is the first build the backing system lists, or `None` when it lists none |
| BuildSources.CacheHitIgnoresInfra | compare.py:57-59 | on a cache hit any other backing system gives the same answer, so the backing system is not consulted |
| BuildSources.GetBuildAfterMakeCache | compare.py:57-59 | after `make_cache`, every listed package is answered with its last listed build, whatever the backing system answers later |
| Comparisons.StatusTable | compare.py:80-86 | the status table is a bijection between -2..2 and the five statuses, and the status texts are distinct and differ from "total" |
| Comparisons.NewComparison | compare.py:88-93 | a new comparison keeps its package list, takes the first source as the baseline and the second as the one compared to it, and starts with no results |
| Comparisons.Classify | compare.py:109-129 | ERROR exactly when source 1 has no build (both nvrs `None`); NONE exactly when only source 2 lacks one (nvr1 only); otherwise OLD, SAME or NEW exactly when `compare_builds` is 1, 0 or -1, with both nvrs recorded |
| Comparisons.ClassifySwap | compare.py:126 | with an antisymmetric labelCompare, exchanging the two sources turns OLD into NEW and back and keeps SAME |
| Comparisons.CompareOne | compare.py:95-129 | a stored row is returned as it is; otherwise the row is the classification of the two sources' builds |
| Comparisons.StoredRowIgnoresSources | compare.py:103-104 | a stored row is returned whatever the sources or labelCompare are |
| Comparisons.SameWhenOnlyEpochAndDistTagDiffer | compare.py:125-129 | two builds differing only in epoch and `.fcNN`/`.elnNN` tag give status SAME with both nvrs |
| Comparisons.CompareAllOver | compare.py:131-135 | after the loop, every listed package has a row, stored rows are unchanged, new rows are the package's classification, and no other key is added |
| Comparisons.CompareAll | compare.py:131-135 | every package of the comparison's content gets a row, a new row is that package's `compare_one` classification of its two sources' builds, stored rows keep their value, only content packages are added, and both sources are kept |
| Comparisons.CompareAllIdempotent | compare.py:131-135 | a second `compare_all` leaves the results unchanged |
| Comparisons.CompareAllKeepsRowsWellFormed | compare.py:109-135 | every row records exactly the nvrs its status promises, before and after `compare_all` |
| Comparisons.GlobalContentMissesOwnPackages | compare.py:132 | iterating the module-level `content` leaves a package of the comparison's own list without a row, while `CompareAll` gives it one |
| Comparisons.TalliesPartition | compare.py:139-144 | the per-status tallies add up to the number of rows |
| Comparisons.TallyTotal | compare.py:144 | once every row is tallied, the per-status entries add up to the number of rows, so `sum(stats.values())` is the row count |
| Comparisons.Count | compare.py:137-145 | each status key is present exactly when that status occurs and holds its number of rows; `total` is the number of rows |
| Policy.StartsWithAny | eln-check.py:105-107 | the prefix scan is true exactly when some listed prefix starts the name |
| Policy.IsExcluded | eln-check.py:88-108 | true exactly for kernel, kernel-headers, kernel-tools, ipa and shim, and for names starting with `shim-` |
| Policy.IsOnHold | eln-check.py:111-126 | true exactly for freeipa, since the hold prefix list is empty |
| Policy.Buildable | eln-check.py:193-196 | the buildable list holds exactly the packages that are neither on hold nor excluded |
| Policy.LastDot | eln-check.py:28 | the index found holds a `.` and no `.` follows it |
| Policy.NoDistNvr | eln-check.py:26-28 | the whole nvr when it has no `.`; otherwise the part before its last `.`, with no `.` after that point |
| Policy.NoDistNvrRoundTrip | eln-check.py:26-28 | for `r + "." + tail` with a dot-free tail, `no_dist_nvr` gives back `r` |
| ElnCheck.DiffWithRawhide | eln-check.py:129-148 | with no ELN build given, one is looked up; without one the difference is `(package, rawhide, None)`; with one there is a difference exactly when the Rawhide key is strictly higher |
| ElnCheck.ElnLoopDecision | eln-check.py:219-233 | first loop: OLD exactly when Rawhide is higher, else SAME, never NONE; the ELN nvr is reported; the Rawhide build is queued exactly for an OLD package not on hold |
| ElnCheck.ContentLoopDecision | eln-check.py:251-274 | second loop: no ELN build gives NONE with ELN nvr "NONE", queued exactly when not on hold; with an ELN build, OLD or SAME as Rawhide is higher or not, never queued |
| ElnCheck.ElnStepTrace | eln-check.py:202-234 | one pass of the first loop marks the package done, writes at most one line (never NONE) and untags exactly a package outside the content set |
| ElnCheck.ElnStepSound | eln-check.py:202-234 | one pass of the first loop writes only lines for non-excluded packages with a Rawhide build, carrying its nvr, and queues only non-held packages with their Rawhide build id, counting each |
| ElnCheck.ElnStepBookkept | eln-check.py:202-234 | one pass of the first loop, for a package not yet done, keeps every line's package done and no package with two lines |
| ElnCheck.ElnStepWrites | eln-check.py:202-234 | one pass of the first loop appends the line of the build's decision when the package is eligible (not excluded, with a Rawhide build), and its Rawhide build id when that decision queues |
| ElnCheck.ContentStepKeeps | eln-check.py:237-276 | one pass of the second loop marks the package done, leaves the untag list alone, never rewrites earlier lines, and keeps every line's package done with no package on two lines |
| ElnCheck.ContentStepSound | eln-check.py:237-276 | one pass of the second loop writes only lines for non-excluded packages with a Rawhide build, carrying its nvr, and queues only non-held packages with their Rawhide build id, counting each |
| ElnCheck.ContentStepWrites | eln-check.py:237-276 | one pass of the second loop marks the package done and, unless it was already done, appends the line of its decision when it is eligible, and its Rawhide build id when that decision queues |
| ElnCheck.RunElnLoop | eln-check.py:202-234 | the first loop marks every ELN build's package done, untags exactly the names outside the content set, writes no NONE line, and keeps counter = rebuild writes |
| ElnCheck.RunElnLoopBookkept | eln-check.py:202-234 | when the ELN listing names each package once, the first loop writes at most one line per package |
| ElnCheck.RunElnLoopWrites | eln-check.py:202-234 | the first loop writes, in listing order, exactly the lines and rebuild requests of its eligible builds' decisions |
| ElnCheck.ElnLinesMembers | eln-check.py:202-234 | every eligible ELN build gets its decision's line, and every line of the first loop is one of these |
| ElnCheck.ElnRequestsMembers | eln-check.py:202-234 | every eligible ELN build whose decision queues gets a request, and every request of the first loop is one of these |
| ElnCheck.RunContentLoop | eln-check.py:237-276 | the second loop marks every listed package done, only appends lines, and keeps the invariants |
| ElnCheck.RunContentLoopWrites | eln-check.py:237-276 | the second loop writes, in list order, exactly the lines and rebuild requests of the decisions for the eligible packages not yet done, each package once |
| ElnCheck.ContentLinesMembers | eln-check.py:237-276 | every eligible package not done before the second loop gets its decision's line, and every line of the second loop is one of these |
| ElnCheck.ContentRequestsMembers | eln-check.py:237-276 | every eligible package not done before the second loop whose decision queues gets a request, and every request of the second loop is one of these |
| ElnCheck.Run | eln-check.py:186-276 | the counter equals the number of rebuild requests; lines exist only for non-excluded packages with a Rawhide build and carry its nvr; requests only for packages neither excluded nor on hold, with their Rawhide build id; when the ELN listing has no repeated name, no package gets two lines |
| ElnCheck.RunOutput | eln-check.py:186-276 | a run writes the first loop's lines and requests for the ELN listing, followed by the second loop's for the content packages outside that listing |
| ElnCheck.RunLines | eln-check.py:186-276 | every eligible ELN build gets the first loop's line and every eligible content package outside the ELN listing gets the second loop's line; every status line is one of these |
| ElnCheck.RunRequests | eln-check.py:186-276 | a Rawhide build is queued exactly for the eligible packages whose deciding loop says to queue: OLD and not held in the first loop, no ELN build and not held in the second |
| ElnCheck.WebpageCounters | eln-check.py:293-313 | counter_same and counter_old count the SAME and OLD lines; every other status is counted as none, so the three add up to the number of lines |
| ElnCheck.PercentOf | eln-check.py:314-321 | a share is unknown ("?%") exactly when the total is zero |
| ElnCheck.Summarize | eln-check.py:293-321 | the webpage totals add up to the number of lines, and every percentage is "?%" exactly when there are none |

## Left out

- Koji/Brew sessions, `_configure_source`, `get_content` and `get_distro_packages`: network I/O. The backing query is the `Infra` parameter and the package set is a parameter.
- `rpm.labelCompare` internals (rpmvercmp): a foreign C library, kept as an arbitrary -1/0/1 function with reflexivity and antisymmetry as stated hypotheses.
- `Comparison.render`, Jinja2 templates, the webpage, `datetime`: templating and I/O.
- File writing, `os.system("sort -u ...")`, argparse, logging: no effect on results. The messages of compare.py:100-101, :110 and :118 read the module-level `content`, `source1` and `source2`, not the instance's attributes. The script defines those names before it compares, but a library caller that has not defined them gets a `NameError` on those paths. The model treats the messages as having no effect and does not model that error. `ElnCheck.Run` proves that no package gets two status lines when the ELN listing has no repeated name, so `sort -u` does not change what the counters count.
- The `"{:.2%}"` percentage text: floating-point formatting. `ElnCheck.Percent` keeps the numerator and denominator of a share; its `Unknown` case stands for the text "?%".
- ElnCheck.DiffWithRawhide: takes the Rawhide build as a present build, because both callers pass one. With the default `rawhide_build=None` the source returns `(package, None, None)` when ELN has no build, and crashes in `evr` otherwise.
- A failing backing-system query (an exception from Koji) is not modelled; `Infra` always answers.
- The loop over the content set follows the set's iteration order, which Python leaves unspecified; the model takes that order as a sequence parameter.

## Findings

| source | as written | input that shows it | evidently intended | confidence | as-written member | corrected member |
|---|---|---|---|---|---|---|
| compare.py:132 | `compare_all` iterates the module-level `content`, not `self.content` | a `Comparison(["a"], s1, s2)` while the script's module-level `content` is `["b"]` and its module-level `source1`/`source2` exist (or `b` has a build in both sources, so the messages at lines 110 and 118 are never built): `compare_all` fills a row for `b` and none for `a` | iterate `self.content` | high (not executed); the main block passes the same list, so the script's own run is unaffected | Comparisons.GlobalContentMissesOwnPackages | Comparisons.CompareAll |

=== FILE: build_source.dfy ===
/**
 `BuildSource`: a tag of a backing build system plus a cache of the latest
 build of each package under that tag.  The cache is filled only by the bulk
 listing of `make_cache`; a per-package lookup that misses the cache asks the
 backing system and does not store the answer.
 */
module BuildSources {
  import opened Wrappers
  import opened Builds

  datatype BuildSource = BuildSource(infra: Infra, tag: string, cache: map<string, Build>)

  /** The set of package names appearing in a listing. */
  function NamesOf(builds: seq<Build>): (names: set<string>)
    ensures forall i :: 0 <= i < |builds| ==> builds[i].name in names
    ensures forall n :: n in names ==> exists i :: 0 <= i < |builds| && builds[i].name == n
  {
    set i | 0 <= i < |builds| :: builds[i].name
  }

  /** No build after position `i` carries the same name as `builds[i]`. */
  predicate IsLastOfName(builds: seq<Build>, i: int)
    requires 0 <= i < |builds|
  {
    forall j :: i < j < |builds| ==> builds[j].name != builds[i].name
  }

  /**
   The loop of `make_cache`: `cache[build["name"]] = build` for each build in
   order, so a later build with a repeated name overwrites an earlier one.
   */
  function Fill(cache: map<string, Build>, builds: seq<Build>): (r: map<string, Build>)
    ensures r.Keys == cache.Keys + NamesOf(builds)
    ensures forall n :: n in cache && n !in NamesOf(builds) ==> r[n] == cache[n]
    decreases |builds|
  {
    if builds == [] then cache
    else
      var b := builds[0];
      assert NamesOf(builds) == {b.name} + NamesOf(builds[1..]);
      Fill(cache[b.name := b], builds[1..])
  }

  /** The build that `Fill` leaves under a name is the last one of that name in the listing. */
  lemma {:induction false} FillKeepsLast(cache: map<string, Build>, builds: seq<Build>, i: int)
    requires 0 <= i < |builds| && IsLastOfName(builds, i)
    ensures builds[i].name in Fill(cache, builds)
    ensures Fill(cache, builds)[builds[i].name] == builds[i]
    decreases |builds|
  {
    var b := builds[0];
    var rest := builds[1..];
    if i == 0 {
      assert b.name !in NamesOf(rest) by {
        forall j | 0 <= j < |rest|
          ensures rest[j].name != b.name
        {
          assert rest[j] == builds[j + 1];
        }
      }
    } else {
      assert rest[i - 1] == builds[i];
      assert IsLastOfName(rest, i - 1) by {
        forall j | i - 1 < j < |rest|
          ensures rest[j].name != rest[i - 1].name
        {
          assert rest[j] == builds[j + 1];
        }
      }
      FillKeepsLast(cache[b.name := b], rest, i - 1);
    }
  }

  /** `make_cache`: bulk-fill the cache from the tag's full latest listing. */
  function MakeCache(src: BuildSource): (r: BuildSource)
    ensures r.tag == src.tag && r.infra == src.infra
    ensures r.cache.Keys == src.cache.Keys + NamesOf(src.infra(src.tag, None))
    ensures forall n :: n in src.cache && n !in NamesOf(src.infra(src.tag, None)) ==> r.cache[n] == src.cache[n]
    ensures var listing := src.infra(src.tag, None);
            forall i :: 0 <= i < |listing| && IsLastOfName(listing, i) ==> r.cache[listing[i].name] == listing[i]
  {
    var listing := src.infra(src.tag, None);
    assert forall i :: 0 <= i < |listing| && IsLastOfName(listing, i) ==> Fill(src.cache, listing)[listing[i].name] == listing[i] by {
      forall i | 0 <= i < |listing| && IsLastOfName(listing, i)
        ensures Fill(src.cache, listing)[listing[i].name] == listing[i]
      {
        FillKeepsLast(src.cache, listing, i);
      }
    }
    src.(cache := Fill(src.cache, listing))
  }

  /** `BuildSource(infra, tag, make_cache)`: an empty cache, bulk-filled when asked to. */
  function Create(infra: Infra, tag: string, makeCache: bool): (r: BuildSource)
    ensures r.tag == tag && r.infra == infra
    ensures !makeCache ==> r.cache == map[]
    ensures makeCache ==> r.cache.Keys == NamesOf(infra(tag, None))
    ensures var listing := infra(tag, None);
            makeCache ==> forall i :: 0 <= i < |listing| && IsLastOfName(listing, i) ==> r.cache[listing[i].name] == listing[i]
  {
    var src := BuildSource(infra, tag, map[]);
    if makeCache then MakeCache(src) else src
  }

  /** `get_build`: the cached build when there is one, otherwise the first build the backing system lists. */
  function GetBuild(src: BuildSource, package: string): (r: Option<Build>)
    ensures package in src.cache ==> r == Some(src.cache[package])
    ensures package !in src.cache ==> (r == None <==> src.infra(src.tag, Some(package)) == [])
    ensures package !in src.cache && r != None ==> r.value == src.infra(src.tag, Some(package))[0]
  {
    if package in src.cache then Some(src.cache[package])
    else LatestTagged(src.infra, src.tag, package)
  }

  /** A cache hit does not consult the backing system: any other backing system gives the same answer. */
  lemma CacheHitIgnoresInfra(src: BuildSource, other: Infra, package: string)
    requires package in src.cache
    ensures GetBuild(src.(infra := other), package) == GetBuild(src, package)
  {
  }

  /**
   After `make_cache`, every package of the bulk listing is answered from the
   cache with the LAST build of that name in the listing, whatever the backing
   system would answer afterwards.
   */
  lemma GetBuildAfterMakeCache(src: BuildSource, other: Infra, i: int)
    requires 0 <= i < |src.infra(src.tag, None)|
    requires IsLastOfName(src.infra(src.tag, None), i)
    ensures var listing := src.infra(src.tag, None);
            GetBuild(MakeCache(src).(infra := other), listing[i].name) == Some(listing[i])
  {
  }
}

=== FILE: builds.dfy ===
/**
 Builds as the backing build system reports them, the epoch/version/release
 key derived from a build, and the version comparison both tools rely on.

 `rpm.labelCompare` belongs to a C library outside this model.  It appears
 here as a parameter of type `LabelCompare`: any function from two keys to
 -1, 0 or 1.  Lemmas that need more than that take the property they need
 (reflexivity, antisymmetry) as an explicit hypothesis.
 */
module Builds {
  import opened Wrappers
  import DistTag

  /** One build record of the backing system (a Koji/Brew build dictionary). */
  datatype Build = Build(
    name: string,
    epoch: Option<int>,
    version: string,
    release: string,
    nvr: string,
    buildId: int)

  /**
   The backing system's `listTagged(tag, package=..., latest=True)`: the
   latest builds under a tag, for one package (`Some(p)`) or for every package
   (`None`).
   */
  type Infra = (string, Option<string>) -> seq<Build>

  /** The result of a `listTagged` query for one package: its first build, or `None` when the list is empty. */
  function LatestTagged(infra: Infra, tag: string, package: string): (r: Option<Build>)
    ensures r == None <==> infra(tag, Some(package)) == []
    ensures r != None ==> r.value == infra(tag, Some(package))[0]
  {
    var builds := infra(tag, Some(package));
    if |builds| > 0 then Some(builds[0]) else None
  }

  /** The (epoch, version, release) triple handed to the comparison. */
  datatype Evr = Evr(epoch: string, version: string, release: string)

  /**
   `evr(build)`: the epoch is pinned to "0", the version is kept and the
   release loses its distribution markers.
   */
  function EvrOf(b: Build): (e: Evr)
    ensures e.epoch == "0"
    ensures e.version == b.version
    ensures e.release == DistTag.Strip(b.release)
    ensures |e.release| <= |b.release|
    ensures DistTag.IsSubsequence(e.release, b.release)
  {
    DistTag.StripIsSubsequence(b.release);
    Evr("0", b.version, DistTag.Strip(b.release))
  }

  /** A dist tag inside a release is removed from the key and the text after it is kept. */
  lemma EvrOfInnerDistTag(b: Build)
    requires b.release == "1.fc34.1"
    ensures EvrOf(b) == Evr("0", b.version, "1.1")
  {
    DistTag.StripInnerExample();
  }

  /** The outcome of `rpm.labelCompare`: -1, 0 or 1. */
  type Sign = x: int | -1 <= x <= 1

  /** Stand-in for `rpm.labelCompare`. */
  type LabelCompare = (Evr, Evr) -> Sign

  ghost predicate Reflexive(cmp: LabelCompare) {
    forall e :: cmp(e, e) == 0
  }

  ghost predicate Antisymmetric(cmp: LabelCompare) {
    forall a, b :: cmp(a, b) == -cmp(b, a)
  }

  /**
   `compare_builds`: 1, 0 or -1 as build1 is newer than, equal to or older
   than build2; the answer is 1 exactly when `is_higher` holds for their keys.
   */
  function CompareBuilds(cmp: LabelCompare, b1: Build, b2: Build): (r: Sign)
    ensures r == 1 <==> IsHigher(cmp, EvrOf(b1), EvrOf(b2))
  {
    cmp(EvrOf(b1), EvrOf(b2))
  }

  /** `is_higher(evr1, evr2)`: the first key is strictly newer, which is labelCompare answering 1. */
  predicate IsHigher(cmp: LabelCompare, e1: Evr, e2: Evr): (h: bool)
    ensures h <==> cmp(e1, e2) == 1
  {
    cmp(e1, e2) > 0
  }

  /**
   `compare_builds` sees only the versions and the dist-stripped releases:
   builds that agree on those compare alike, whatever their names, epochs,
   nvrs and ids.
   */
  lemma CompareBuildsSeesOnlyKey(cmp: LabelCompare, b1: Build, b2: Build, c1: Build, c2: Build)
    requires b1.version == c1.version && DistTag.Strip(b1.release) == DistTag.Strip(c1.release)
    requires b2.version == c2.version && DistTag.Strip(b2.release) == DistTag.Strip(c2.release)
    ensures CompareBuilds(cmp, b1, b2) == CompareBuilds(cmp, c1, c2)
  {
    assert EvrOf(b1) == EvrOf(c1) && EvrOf(b2) == EvrOf(c2);
  }

  /** The epoch never influences the key. */
  lemma EvrIgnoresEpoch(b: Build, epoch: Option<int>)
    ensures EvrOf(b.(epoch := epoch)) == EvrOf(b)
  {
  }

  /**
   A release `r` followed by a dist tag has the key of `r` alone, whatever
   `r` holds; when `r` holds no match itself, the key's release is `r`.
   */
  lemma EvrDropsDistTag(b: Build, r: string, marker: string, ds: string)
    requires marker == "fc" || marker == "eln"
    requires DistTag.AllDigits(ds)
    requires b.release == r + "." + marker + ds
    ensures EvrOf(b) == EvrOf(b.(release := r))
    ensures !DistTag.HasMatch(r) ==> EvrOf(b) == Evr("0", b.version, r)
  {
    DistTag.StripDropsDistSuffix(r, marker, ds);
    DistTag.StripUnchangedIff(r);
  }

  /**
   Two builds that differ only in epoch and in dist tag (`.fcNN` against
   `.elnNN`) compare as equal, given a reflexive labelCompare.
   */
  lemma SameModuloEpochAndDistTag(cmp: LabelCompare, b1: Build, b2: Build,
                                   r: string, m1: string, d1: string, m2: string, d2: string)
    requires Reflexive(cmp)
    requires b1.version == b2.version
    requires m1 == "fc" || m1 == "eln"
    requires m2 == "fc" || m2 == "eln"
    requires DistTag.AllDigits(d1) && DistTag.AllDigits(d2)
    requires b1.release == r + "." + m1 + d1
    requires b2.release == r + "." + m2 + d2
    ensures CompareBuilds(cmp, b1, b2) == 0
    ensures !IsHigher(cmp, EvrOf(b1), EvrOf(b2)) && !IsHigher(cmp, EvrOf(b2), EvrOf(b1))
  {
    EvrDropsDistTag(b1, r, m1, d1);
    EvrDropsDistTag(b2, r, m2, d2);
    assert EvrOf(b1) == EvrOf(b2);
  }

  /** Swapping the two builds negates the comparison, given an antisymmetric labelCompare. */
  lemma CompareBuildsSwap(cmp: LabelCompare, b1: Build, b2: Build)
    requires Antisymmetric(cmp)
    ensures CompareBuilds(cmp, b1, b2) == -CompareBuilds(cmp, b2, b1)
    ensures IsHigher(cmp, EvrOf(b1), EvrOf(b2)) <==> CompareBuilds(cmp, b2, b1) == -1
  {
  }
}

=== FILE: comparison.dfy ===
/**
 The `Comparison` engine: classifies each package by the builds two sources
 hold for it, remembers one row per package, and tallies the rows by status.
 */
module Comparisons {
  import opened Wrappers
  import opened Builds
  import opened BuildSources

  /** The five classifications of the class table `Comparison.status`. */
  datatype Status = ERROR | NEW | SAME | OLD | NONE {
    /** The status text stored in a result row. */
    function Name(): string {
      match this
      case ERROR => "ERROR"
      case NEW => "NEW"
      case SAME => "SAME"
      case OLD => "OLD"
      case NONE => "NONE"
    }
  }

  /** The keys of the class table: -2 .. 2. */
  type StatusCode = x: int | -2 <= x <= 2

  /** The class table `status = {-2: ERROR, -1: NEW, 0: SAME, 1: OLD, 2: NONE}`. */
  function StatusOf(code: StatusCode): Status {
    if code == -2 then ERROR
    else if code == -1 then NEW
    else if code == 0 then SAME
    else if code == 1 then OLD
    else NONE
  }

  /** The key under which the class table stores a status. */
  function CodeOf(s: Status): StatusCode {
    match s
    case ERROR => -2
    case NEW => -1
    case SAME => 0
    case OLD => 1
    case NONE => 2
  }

  /** The class table is a bijection, and distinct statuses have distinct texts, none of them "total". */
  lemma StatusTable(code: StatusCode, s: Status, t: Status)
    ensures CodeOf(StatusOf(code)) == code
    ensures StatusOf(CodeOf(s)) == s
    ensures s.Name() == t.Name() ==> s == t
    ensures s.Name() != "total"
  {
  }

  /** One entry of `results`: the status and the nvr of each build, `None` where the source has none recorded. */
  datatype Row = Row(status: Status, nvr1: Option<string>, nvr2: Option<string>)

  /**
   A row records exactly the nvrs its status promises: none for ERROR, the
   first only for NONE, both otherwise.
   */
  predicate WellFormed(row: Row) {
    && (row.status == ERROR ==> row.nvr1 == None && row.nvr2 == None)
    && (row.status == NONE ==> row.nvr1 != None && row.nvr2 == None)
    && (row.status in {NEW, SAME, OLD} ==> row.nvr1 != None && row.nvr2 != None)
  }

  datatype Comparison = Comparison(
    content: seq<string>,
    source1: BuildSource,
    source2: BuildSource,
    results: map<string, Row>)

  /** `Comparison(content, source1, source2)`: no results yet. */
  function NewComparison(content: seq<string>, source1: BuildSource, source2: BuildSource): (c: Comparison)
    ensures c.results == map[] && c.content == content
    ensures c.source1 == source1 && c.source2 == source2
  {
    Comparison(content, source1, source2, map[])
  }

  /**
   The classification of a package from its two builds: source 1 is the
   baseline, so a missing first build is an ERROR whatever source 2 holds; a
   missing second build is NONE; otherwise the sign of `compare_builds`
   selects OLD, SAME or NEW through the class table.
   */
  function Classify(cmp: LabelCompare, b1: Option<Build>, b2: Option<Build>): (r: Row)
    ensures WellFormed(r)
    ensures r.status == ERROR <==> b1 == None
    ensures r.status == NONE <==> b1 != None && b2 == None
    ensures r.nvr1 == (if b1 != None then Some(b1.value.nvr) else None)
    ensures r.nvr2 == (if b1 != None && b2 != None then Some(b2.value.nvr) else None)
    ensures b1 != None && b2 != None ==>
              && (r.status == OLD <==> CompareBuilds(cmp, b1.value, b2.value) == 1)
              && (r.status == SAME <==> CompareBuilds(cmp, b1.value, b2.value) == 0)
              && (r.status == NEW <==> CompareBuilds(cmp, b1.value, b2.value) == -1)
  {
    if b1 == None then Row(StatusOf(-2), None, None)
    else if b2 == None then Row(StatusOf(2), Some(b1.value.nvr), None)
    else Row(StatusOf(CompareBuilds(cmp, b1.value, b2.value)), Some(b1.value.nvr), Some(b2.value.nvr))
  }

  /**
   `compare_one`: a stored row is returned as it is; otherwise the package is
   looked up in both sources and classified.  The row is not stored, and the
   warning about a package outside the content list changes nothing.
   */
  function CompareOne(c: Comparison, cmp: LabelCompare, package: string): (r: Row)
    ensures package in c.results ==> r == c.results[package]
    ensures package !in c.results ==>
              r == Classify(cmp, GetBuild(c.source1, package), GetBuild(c.source2, package))
  {
    if package in c.results then c.results[package]
    else Classify(cmp, GetBuild(c.source1, package), GetBuild(c.source2, package))
  }

  /** A stored row is returned without consulting either source or the comparison. */
  lemma StoredRowIgnoresSources(c: Comparison, cmp: LabelCompare, s1: BuildSource, s2: BuildSource,
                                other: LabelCompare, package: string)
    requires package in c.results
    ensures CompareOne(c.(source1 := s1, source2 := s2), other, package) == CompareOne(c, cmp, package)
  {
  }

  /**
   Given a reflexive labelCompare, builds whose epochs and dist tags are the
   only difference classify as SAME, with both nvrs recorded.
   */
  lemma SameWhenOnlyEpochAndDistTagDiffer(cmp: LabelCompare, b1: Build, b2: Build,
                                          r: string, m1: string, d1: string, m2: string, d2: string)
    requires Reflexive(cmp)
    requires b1.version == b2.version
    requires m1 == "fc" || m1 == "eln"
    requires m2 == "fc" || m2 == "eln"
    requires DistTag.AllDigits(d1) && DistTag.AllDigits(d2)
    requires b1.release == r + "." + m1 + d1
    requires b2.release == r + "." + m2 + d2
    ensures Classify(cmp, Some(b1), Some(b2)) == Row(SAME, Some(b1.nvr), Some(b2.nvr))
  {
    SameModuloEpochAndDistTag(cmp, b1, b2, r, m1, d1, m2, d2);
  }

  /**
   Given an antisymmetric labelCompare, swapping the two sources turns OLD
   into NEW and back, and keeps SAME.
   */
  lemma ClassifySwap(cmp: LabelCompare, b1: Build, b2: Build)
    requires Antisymmetric(cmp)
    ensures Classify(cmp, Some(b1), Some(b2)).status == OLD <==> Classify(cmp, Some(b2), Some(b1)).status == NEW
    ensures Classify(cmp, Some(b1), Some(b2)).status == SAME <==> Classify(cmp, Some(b2), Some(b1)).status == SAME
  {
    CompareBuildsSwap(cmp, b1, b2);
  }

  function ElementsOf(packages: seq<string>): set<string> {
    set i | 0 <= i < |packages| :: packages[i]
  }

  /**
   The loop of `compare_all` over a list of packages: each package gets
   `results[package] = compare_one(package)`.  Stored rows never change, a
   new package gets its classification, and no other key is touched.
   */
  function CompareAllOver(c: Comparison, packages: seq<string>, cmp: LabelCompare): (r: Comparison)
    ensures r.content == c.content && r.source1 == c.source1 && r.source2 == c.source2
    ensures r.results.Keys == c.results.Keys + ElementsOf(packages)
    ensures forall p :: p in c.results ==> r.results[p] == c.results[p]
    ensures forall p :: p in ElementsOf(packages) && p !in c.results ==>
              r.results[p] == Classify(cmp, GetBuild(c.source1, p), GetBuild(c.source2, p))
    decreases |packages|
  {
    if packages == [] then c
    else
      var p := packages[0];
      var next := c.(results := c.results[p := CompareOne(c, cmp, p)]);
      assert ElementsOf(packages) == {p} + ElementsOf(packages[1..]) by {
        assert forall i :: 1 <= i < |packages| ==> packages[1..][i - 1] == packages[i];
      }
      CompareAllOver(next, packages[1..], cmp)
  }

  /** `compare_all` over the comparison's own package list. */
  function CompareAll(c: Comparison, cmp: LabelCompare): (r: Comparison)
    ensures r.content == c.content
    ensures forall p :: p in c.content ==> p in r.results
    ensures forall p :: p in r.results ==> p in c.results || p in c.content
    ensures forall p :: p in c.results ==> p in r.results && r.results[p] == c.results[p]
    ensures forall p :: p in c.content && p !in c.results ==>
              r.results[p] == Classify(cmp, GetBuild(c.source1, p), GetBuild(c.source2, p))
    ensures r.source1 == c.source1 && r.source2 == c.source2
  {
    assert forall p :: p in c.content ==> p in ElementsOf(c.content);
    CompareAllOver(c, c.content, cmp)
  }

  /** Running `compare_all` a second time changes nothing. */
  lemma CompareAllIdempotent(c: Comparison, cmp: LabelCompare)
    ensures CompareAll(CompareAll(c, cmp), cmp).results == CompareAll(c, cmp).results
  {
  }

  /** `compare_all` keeps every row well-formed. */
  lemma CompareAllKeepsRowsWellFormed(c: Comparison, packages: seq<string>, cmp: LabelCompare)
    requires forall p :: p in c.results ==> WellFormed(c.results[p])
    ensures var r := CompareAllOver(c, packages, cmp);
            forall p :: p in r.results ==> WellFormed(r.results[p])
  {
  }

  /**
   The method `compare_all` iterates the MODULE-LEVEL `content`, not the
   comparison's own list: a package only the comparison's own list holds gets
   no row.
   */
  lemma GlobalContentMissesOwnPackages(c: Comparison, globalContent: seq<string>, cmp: LabelCompare)
    requires c.results == map[]
    requires |c.content| > 0 && c.content[0] !in globalContent
    ensures c.content[0] !in CompareAllOver(c, globalContent, cmp).results
    ensures c.content[0] in CompareAll(c, cmp).results
  {
  }

  /** The keys of `results` among `keys` whose row has status `s`. */
  function WithStatus(results: map<string, Row>, keys: set<string>, s: Status): set<string> {
    set p | p in keys && p in results && results[p].status == s
  }

  /** Number of rows with status `s`. */
  function StatusCount(results: map<string, Row>, s: Status): nat {
    |WithStatus(results, results.Keys, s)|
  }

  /** The five per-status tallies over `keys`, added up. */
  function SumOfTallies(results: map<string, Row>, keys: set<string>): nat {
    |WithStatus(results, keys, ERROR)| + |WithStatus(results, keys, NEW)|
    + |WithStatus(results, keys, SAME)| + |WithStatus(results, keys, OLD)|
    + |WithStatus(results, keys, NONE)|
  }

  /** Adding one key to `keys` adds it to the tally of its own status and to no other. */
  lemma WithStatusAdd(results: map<string, Row>, keys: set<string>, p: string, s: Status)
    requires p in results && p !in keys
    ensures WithStatus(results, keys + {p}, s) ==
            WithStatus(results, keys, s) + (if results[p].status == s then {p} else {})
    ensures |WithStatus(results, keys + {p}, s)| ==
            |WithStatus(results, keys, s)| + (if results[p].status == s then 1 else 0)
  {
  }

  /** Every row has exactly one status, so the tallies add up to the number of rows. */
  lemma {:induction false} TalliesPartition(results: map<string, Row>, keys: set<string>)
    requires keys <= results.Keys
    ensures SumOfTallies(results, keys) == |keys|
    decreases |keys|
  {
    if keys == {} {
      assert forall s :: WithStatus(results, keys, s) == {};
    } else {
      var p :| p in keys;
      var rest := keys - {p};
      TalliesPartition(results, rest);
      assert rest + {p} == keys;
      WithStatusAdd(results, rest, p, ERROR);
      WithStatusAdd(results, rest, p, NEW);
      WithStatusAdd(results, rest, p, SAME);
      WithStatusAdd(results, rest, p, OLD);
      WithStatusAdd(results, rest, p, NONE);
    }
  }

  /** The entry for `name`, or 0 when there is none. */
  function Lookup(stats: map<string, nat>, name: string): nat {
    if name in stats then stats[name] else 0
  }

  predicate IsStatusName(k: string) {
    k == "ERROR" || k == "NEW" || k == "SAME" || k == "OLD" || k == "NONE"
  }

  /** `stats` holds, for the rows of `done`, one entry per occurring status with its number of rows. */
  predicate TalliesOf(results: map<string, Row>, done: set<string>, stats: map<string, nat>) {
    && (forall s: Status :: s.Name() in stats <==> |WithStatus(results, done, s)| > 0)
    && (forall s: Status :: s.Name() in stats ==> stats[s.Name()] == |WithStatus(results, done, s)|)
    && (forall k :: k in stats ==> IsStatusName(k))
  }

  /** The loop body of `count`: `if value not in stats: stats[value] = 0`, then `stats[value] += 1`. */
  function Bump(stats: map<string, nat>, value: string): map<string, nat> {
    var stats' := if value !in stats then stats[value := 0] else stats;
    stats'[value := stats'[value] + 1]
  }

  lemma BumpKeepsTallies(results: map<string, Row>, done: set<string>, stats: map<string, nat>, p: string)
    requires p in results && p !in done
    requires TalliesOf(results, done, stats)
    ensures TalliesOf(results, done + {p}, Bump(stats, results[p].status.Name()))
  {
    var value := results[p].status;
    forall s: Status
      ensures |WithStatus(results, done + {p}, s)| ==
              |WithStatus(results, done, s)| + (if value == s then 1 else 0)
      ensures s.Name() == value.Name() ==> s == value
    {
      WithStatusAdd(results, done, p, s);
      StatusTable(0, s, value);
    }
  }

  /** Once every row is tallied, the five tallies add up to the number of rows. */
  lemma TallyTotal(results: map<string, Row>, stats: map<string, nat>)
    requires TalliesOf(results, results.Keys, stats)
    ensures Lookup(stats, ERROR.Name()) + Lookup(stats, NEW.Name()) + Lookup(stats, SAME.Name())
            + Lookup(stats, OLD.Name()) + Lookup(stats, NONE.Name()) == |results|
  {
    TalliesPartition(results, results.Keys);
    forall s: Status
      ensures Lookup(stats, s.Name()) == |WithStatus(results, results.Keys, s)|
    {
    }
  }

  /** Adding the `total` entry leaves every status entry as it was. */
  lemma TotalEntryKeepsTallies(results: map<string, Row>, stats: map<string, nat>, total: nat)
    requires TalliesOf(results, results.Keys, stats)
    ensures var r := stats["total" := total];
            && (forall s: Status :: s.Name() in r <==> StatusCount(results, s) > 0)
            && (forall s: Status :: s.Name() in r ==> r[s.Name()] == StatusCount(results, s))
            && (forall k :: k in r ==> k == "total" || IsStatusName(k))
  {
    forall s: Status
      ensures s.Name() != "total"
    {
      StatusTable(0, s, s);
    }
  }

  /**
   `count`: one entry per status that occurs, holding the number of rows with
   that status (statuses that do not occur are absent), plus `total`, the sum
   of those entries, which is the number of rows.
   */
  method Count(results: map<string, Row>) returns (stats: map<string, nat>)
    ensures forall s: Status :: s.Name() in stats <==> StatusCount(results, s) > 0
    ensures forall s: Status :: s.Name() in stats ==> stats[s.Name()] == StatusCount(results, s)
    ensures "total" in stats && stats["total"] == |results|
    ensures forall k :: k in stats ==> k == "total" || IsStatusName(k)
  {
    stats := map[];
    var todo := results.Keys;
    ghost var done: set<string> := {};
    while todo != {}
      invariant todo !! done && todo + done == results.Keys
      invariant TalliesOf(results, done, stats)
      decreases |todo|
    {
      var p :| p in todo;
      BumpKeepsTallies(results, done, stats, p);
      stats := Bump(stats, results[p].status.Name());
      todo := todo - {p};
      done := done + {p};
    }
    assert done == results.Keys;
    // `sum(stats.values())`: the keys of `stats` are status names only.
    TallyTotal(results, stats);
    var total := Lookup(stats, ERROR.Name()) + Lookup(stats, NEW.Name()) + Lookup(stats, SAME.Name())
                 + Lookup(stats, OLD.Name()) + Lookup(stats, NONE.Name());
    TotalEntryKeepsTallies(results, stats, total);
    stats := stats["total" := total];
  }
}

=== FILE: dist_tag.dfy ===
/**
 The distribution-tag stripper shared by both comparison tools: the release
 rewrite `re.sub(".(fc|eln)[0-9]*", "", release)` as a left-to-right scan.

 The regular expression's leading `.` is not escaped, so it matches ANY one
 character except a newline, not only a dot.  At each position the scan either
 finds a match (one non-newline character, then `fc` or `eln`, then the longest
 run of ASCII digits) and drops it, or keeps the character and moves on.
 Every match is at least three characters long, so there are no empty matches.
 */
module DistTag {

  predicate IsDigit(c: char) {
    '0' <= c <= '9'
  }

  predicate AllDigits(s: seq<char>) {
    forall k :: 0 <= k < |s| ==> IsDigit(s[k])
  }

  /** Length of the longest run of ASCII digits at the start of `s` (`[0-9]*`, greedy). */
  function DigitRun(s: seq<char>): (n: nat)
    ensures n <= |s|
    ensures AllDigits(s[..n])
    ensures n < |s| ==> !IsDigit(s[n])
  {
    if |s| > 0 && IsDigit(s[0]) then 1 + DigitRun(s[1..]) else 0
  }

  /** `fc` follows the first character. */
  predicate IsFc(s: seq<char>) {
    |s| >= 3 && s[1] == 'f' && s[2] == 'c'
  }

  /** `eln` follows the first character. */
  predicate IsEln(s: seq<char>) {
    |s| >= 4 && s[1] == 'e' && s[2] == 'l' && s[3] == 'n'
  }

  /** True when the pattern matches at the start of `s`: a non-newline character followed by `fc` or `eln`. */
  predicate IsMatchStart(s: seq<char>) {
    && |s| >= 3
    && s[0] != '\n'
    && (IsFc(s) || IsEln(s))
  }

  /** Length of the match at the start of `s`, or 0 when the pattern does not match there. */
  function MatchLength(s: seq<char>): (m: nat)
    ensures m <= |s|
    ensures m == 0 <==> !IsMatchStart(s)
    ensures m > 0 ==> m >= 3
  {
    if s != [] && s[0] != '\n' && IsFc(s) then 3 + DigitRun(s[3..])
    else if s != [] && s[0] != '\n' && IsEln(s) then 4 + DigitRun(s[4..])
    else 0
  }

  /** Position `i` of `s` starts a match. */
  predicate MatchAt(s: seq<char>, i: int)
    requires 0 <= i < |s|
  {
    IsMatchStart(s[i..])
  }

  /** Some position of `s` starts a match. */
  predicate HasMatch(s: seq<char>) {
    exists i :: 0 <= i < |s| && MatchAt(s, i)
  }

  /** `a` is obtained from `b` by deleting characters (order kept). */
  predicate IsSubsequence(a: seq<char>, b: seq<char>)
    decreases |b|
  {
    || a == []
    || (&& |b| > 0
        && ((a[0] == b[0] && IsSubsequence(a[1..], b[1..])) || IsSubsequence(a, b[1..])))
  }

  /** `re.sub(".(fc|eln)[0-9]*", "", s)`: drop every match found by the left-to-right scan. */
  function Strip(s: seq<char>): (r: seq<char>)
    ensures |r| <= |s|
    ensures IsMatchStart(s) ==> |r| + 3 <= |s|
    decreases |s|
  {
    if |s| == 0 then []
    else
      var m := MatchLength(s);
      if m > 0 then Strip(s[m..]) else [s[0]] + Strip(s[1..])
  }

  lemma {:induction false} SubsequenceOfSuffix(a: seq<char>, b: seq<char>, k: nat)
    requires k <= |b|
    requires IsSubsequence(a, b[k..])
    ensures IsSubsequence(a, b)
    decreases k
  {
    if k > 0 {
      assert b[k - 1..][1..] == b[k..];
      assert IsSubsequence(a, b[k - 1..]);
      SubsequenceOfSuffix(a, b, k - 1);
    }
  }

  /** The stripped release keeps the characters it keeps in their original order. */
  lemma {:induction false} StripIsSubsequence(s: seq<char>)
    ensures IsSubsequence(Strip(s), s)
    decreases |s|
  {
    if |s| > 0 {
      var m := MatchLength(s);
      if m > 0 {
        StripIsSubsequence(s[m..]);
        SubsequenceOfSuffix(Strip(s[m..]), s, m);
      } else {
        StripIsSubsequence(s[1..]);
        var r := Strip(s);
        assert r == [s[0]] + Strip(s[1..]);
        assert r[0] == s[0] && r[1..] == Strip(s[1..]);
      }
    }
  }

  /** A string with a match anywhere loses at least three characters. */
  lemma {:induction false} StripShrinksOnMatch(s: seq<char>)
    requires HasMatch(s)
    ensures |Strip(s)| + 3 <= |s|
    decreases |s|
  {
    var i :| 0 <= i < |s| && MatchAt(s, i);
    if i == 0 {
      assert s[0..] == s;
    } else if IsMatchStart(s) {
    } else {
      assert s[1..][i - 1..] == s[i..];
      assert MatchAt(s[1..], i - 1);
      StripShrinksOnMatch(s[1..]);
    }
  }

  /** Dropping the first character of a match-free string leaves it match-free. */
  lemma MatchFreeTail(s: seq<char>)
    requires |s| > 0 && !HasMatch(s)
    ensures !IsMatchStart(s) && !HasMatch(s[1..])
  {
    assert s[0..] == s;
    assert !MatchAt(s, 0);
    forall i | 0 <= i < |s| - 1
      ensures !MatchAt(s[1..], i)
    {
      assert s[1..][i..] == s[i + 1..];
      assert !MatchAt(s, i + 1);
    }
  }

  /** A string with no match anywhere is returned unchanged. */
  lemma {:induction false} StripKeepsMatchFree(s: seq<char>)
    requires !HasMatch(s)
    ensures Strip(s) == s
    decreases |s|
  {
    if |s| > 0 {
      MatchFreeTail(s);
      StripKeepsMatchFree(s[1..]);
    }
  }

  /** The release comes back unchanged exactly when no position of it starts a match. */
  lemma StripUnchangedIff(s: seq<char>)
    ensures Strip(s) == s <==> !HasMatch(s)
  {
    if HasMatch(s) {
      StripShrinksOnMatch(s);
    } else {
      StripKeepsMatchFree(s);
    }
  }

  /** `s` contains `w` as a contiguous piece. */
  predicate Contains(s: seq<char>, w: seq<char>) {
    exists i :: 0 <= i <= |s| && w <= s[i..]
  }

  /** A release that mentions neither `fc` nor `eln` is left as it is. */
  lemma MarkerFreeUnchanged(s: seq<char>)
    requires !Contains(s, "fc") && !Contains(s, "eln")
    ensures Strip(s) == s
  {
  }

  /** Characters that could complete a match begun before them: `f`, `c`, `e`, `l`, `n`. */
  predicate IsMarkerChar(c: char) {
    c == 'f' || c == 'c' || c == 'e' || c == 'l' || c == 'n'
  }

  /** No match can start in a match-free `r` and run into a suffix that does not begin with a marker character. */
  lemma NoMatchAcrossJoin(r: seq<char>, t: seq<char>)
    requires |r| > 0 && !IsMatchStart(r)
    requires |t| > 0 && !IsMarkerChar(t[0])
    ensures !IsMatchStart(r + t)
  {
  }

  /** Unfolding of `Strip` at a position that does not start a match. */
  lemma StripKeep(s: seq<char>)
    requires |s| > 0 && !IsMatchStart(s)
    ensures Strip(s) == [s[0]] + Strip(s[1..])
  {
  }

  /** One non-newline character, a marker and a digit run form a single whole match. */
  lemma StripWholeMatch(c: char, marker: seq<char>, ds: seq<char>)
    requires c != '\n'
    requires marker == "fc" || marker == "eln"
    requires AllDigits(ds)
    ensures Strip([c] + marker + ds) == []
  {
  }

  lemma ConsConcat(r: seq<char>, u: seq<char>)
    requires |r| > 0
    ensures [r[0]] + (r[1..] + u) == r + u
  {
    assert r == [r[0]] + r[1..];
  }

  /** One step of `StripMatchFreePrefix`: the first character of `r` is kept. */
  lemma StripJoinStep(r: seq<char>, t: seq<char>)
    requires |r| > 0 && !IsMatchStart(r)
    requires |t| > 0 && !IsMarkerChar(t[0])
    ensures Strip(r + t) == [r[0]] + Strip(r[1..] + t)
  {
    NoMatchAcrossJoin(r, t);
    var s := r + t;
    assert s[0] == r[0] && s[1..] == r[1..] + t;
    StripKeep(s);
  }

  /**
   A match-free prefix passes through untouched when what follows it does not
   begin with a marker character: the scan cannot find a match that starts in
   `r` and reaches into `t`.
   */
  lemma {:induction false} StripMatchFreePrefix(r: seq<char>, t: seq<char>)
    requires !HasMatch(r)
    requires |t| > 0 && !IsMarkerChar(t[0])
    ensures Strip(r + t) == r + Strip(t)
    decreases |r|
  {
    if |r| == 0 {
      assert r + t == t;
    } else {
      MatchFreeTail(r);
      StripJoinStep(r, t);
      StripMatchFreePrefix(r[1..], t);
      ConsConcat(r, Strip(t));
    }
  }

  /**
   The intended effect: a release `r` followed by `.fc<digits>` or
   `.eln<digits>` strips back to `r`, provided `r` itself holds no match.
   */
  lemma StripDistSuffix(r: seq<char>, marker: seq<char>, ds: seq<char>)
    requires !HasMatch(r)
    requires marker == "fc" || marker == "eln"
    requires AllDigits(ds)
    ensures Strip(r + "." + marker + ds) == r
  {
    var t := "." + marker + ds;
    assert r + "." + marker + ds == r + t;
    StripWholeMatch('.', marker, ds);
    StripMatchFreePrefix(r, t);
  }

  /** A digit run stops at the first non-digit, so text after it does not lengthen it. */
  lemma {:induction false} DigitRunJoin(x: seq<char>, t: seq<char>)
    requires t == [] || !IsDigit(t[0])
    ensures DigitRun(x + t) == DigitRun(x)
    decreases |x|
  {
    if x == [] {
      assert x + t == t;
    } else {
      assert (x + t)[0] == x[0] && (x + t)[1..] == x[1..] + t;
      DigitRunJoin(x[1..], t);
    }
  }

  /** A match is exactly the leader, the marker and the whole digit run that follows: it ends at the first non-digit. */
  lemma MatchLengthOfDistTag(c: char, marker: seq<char>, ds: seq<char>, t: seq<char>)
    requires c != '\n'
    requires marker == "fc" || marker == "eln"
    requires AllDigits(ds)
    requires t == [] || !IsDigit(t[0])
    ensures MatchLength([c] + marker + ds + t) == 1 + |marker| + |ds|
  {
    var u := [c] + marker + ds + t;
    var k := 1 + |marker|;
    assert u[k..] == ds + t;
    DigitRunJoin(ds, t);
    DigitRunOfDigits(ds);
    if marker == "fc" {
      assert u[1] == 'f' && u[2] == 'c';
    } else {
      assert u[1] == 'e' && u[2] == 'l' && u[3] == 'n';
    }
  }

  /** A run made only of digits is taken whole. */
  lemma {:induction false} DigitRunOfDigits(ds: seq<char>)
    requires AllDigits(ds)
    ensures DigitRun(ds) == |ds|
    decreases |ds|
  {
    if ds != [] {
      assert AllDigits(ds[1..]) by {
        forall k | 0 <= k < |ds[1..]|
          ensures IsDigit(ds[1..][k])
        {
          assert ds[1..][k] == ds[k + 1];
        }
      }
      DigitRunOfDigits(ds[1..]);
    }
  }

  /** After a match the scan resumes right behind its digit run: what follows is stripped on its own. */
  lemma StripMatchThenRest(c: char, marker: seq<char>, ds: seq<char>, t: seq<char>)
    requires c != '\n'
    requires marker == "fc" || marker == "eln"
    requires AllDigits(ds)
    requires t == [] || !IsDigit(t[0])
    ensures Strip([c] + marker + ds + t) == Strip(t)
  {
    var u := [c] + marker + ds + t;
    MatchLengthOfDistTag(c, marker, ds, t);
    assert u[1 + |marker| + |ds|..] == t;
  }

  /**
   A dist tag in the middle of a release is removed and everything after it
   is kept and scanned on: `r.fc34.1` strips to `r` followed by `.1` stripped.
   */
  lemma StripDistTagInside(r: seq<char>, c: char, marker: seq<char>, ds: seq<char>, t: seq<char>)
    requires !HasMatch(r)
    requires c != '\n' && !IsMarkerChar(c)
    requires marker == "fc" || marker == "eln"
    requires AllDigits(ds)
    requires t == [] || !IsDigit(t[0])
    ensures Strip(r + [c] + marker + ds + t) == r + Strip(t)
  {
    var u := [c] + marker + ds + t;
    assert r + [c] + marker + ds + t == r + u;
    StripMatchFreePrefix(r, u);
    StripMatchThenRest(c, marker, ds, t);
  }

  /**
   Text that starts with neither a marker character nor a digit can neither
   complete a match begun before it nor extend one's digit run.
   */
  lemma MatchLengthJoin(a: seq<char>, b: seq<char>)
    requires |a| > 0
    requires |b| > 0 && !IsMarkerChar(b[0]) && !IsDigit(b[0])
    ensures MatchLength(a + b) == MatchLength(a)
  {
    var s := a + b;
    assert s[0] == a[0];
    assert |a| > 1 ==> s[1] == a[1];
    assert |a| > 2 ==> s[2] == a[2];
    assert |a| > 3 ==> s[3] == a[3];
    assert s[|a|] == b[0];
    if |a| >= 3 {
      assert s[3..] == a[3..] + b;
      DigitRunJoin(a[3..], b);
    }
    if |a| >= 4 {
      assert s[4..] == a[4..] + b;
      DigitRunJoin(a[4..], b);
    }
  }

  /**
   Stripping distributes over a join whose right part starts with neither a
   marker character nor a digit: every match lies wholly on one side.
   */
  lemma {:induction false} StripJoin(a: seq<char>, b: seq<char>)
    requires |b| > 0 && !IsMarkerChar(b[0]) && !IsDigit(b[0])
    ensures Strip(a + b) == Strip(a) + Strip(b)
    decreases |a|
  {
    if a == [] {
      assert a + b == b;
    } else if MatchLength(a) > 0 {
      StripJoin(a[MatchLength(a)..], b);
      StripJoinAfterMatch(a, b);
    } else {
      StripJoin(a[1..], b);
      StripJoinAfterKeep(a, b);
    }
  }

  lemma SliceOfJoin(a: seq<char>, b: seq<char>, m: nat)
    requires m <= |a|
    ensures (a + b)[m..] == a[m..] + b
  {
  }

  /** The step of `StripJoin` where `a` starts with a match. */
  lemma StripJoinAfterMatch(a: seq<char>, b: seq<char>)
    requires |a| > 0 && MatchLength(a) > 0
    requires |b| > 0 && !IsMarkerChar(b[0]) && !IsDigit(b[0])
    requires Strip(a[MatchLength(a)..] + b) == Strip(a[MatchLength(a)..]) + Strip(b)
    ensures Strip(a + b) == Strip(a) + Strip(b)
  {
    MatchLengthJoin(a, b);
    SliceOfJoin(a, b, MatchLength(a));
  }

  /** The step of `StripJoin` where the first character of `a` is kept. */
  lemma StripJoinAfterKeep(a: seq<char>, b: seq<char>)
    requires |a| > 0 && MatchLength(a) == 0
    requires |b| > 0 && !IsMarkerChar(b[0]) && !IsDigit(b[0])
    requires Strip(a[1..] + b) == Strip(a[1..]) + Strip(b)
    ensures Strip(a + b) == Strip(a) + Strip(b)
  {
    MatchLengthJoin(a, b);
    SliceOfJoin(a, b, 1);
    assert (a + b)[0] == a[0];
    ConsConcat([a[0]] + Strip(a[1..]), Strip(b));
  }

  /** A trailing `.fc<digits>` or `.eln<digits>` is dropped whatever the release before it holds. */
  lemma StripDropsDistSuffix(r: seq<char>, marker: seq<char>, ds: seq<char>)
    requires marker == "fc" || marker == "eln"
    requires AllDigits(ds)
    ensures Strip(r + "." + marker + ds) == Strip(r)
  {
    var t := "." + marker + ds;
    assert r + "." + marker + ds == r + t;
    StripJoin(r, t);
    StripWholeMatch('.', marker, ds);
  }

  /** `1` holds no match, being a single character. */
  lemma OneIsMatchFree()
    ensures !HasMatch("1")
  {
    assert !MatchAt("1", 0);
  }

  /** Worked case: `1.fc34` strips to `1`. */
  lemma StripFcExample()
    ensures Strip("1.fc34") == "1"
  {
    OneIsMatchFree();
    StripDistSuffix("1", "fc", "34");
    assert "1" + "." + "fc" + "34" == "1.fc34";
  }

  /** `.1` is too short to hold a match. */
  lemma DotOneUnchanged()
    ensures Strip(".1") == ".1"
  {
    var t := ".1";
    assert !HasMatch(t) by {
      assert !MatchAt(t, 0) && !MatchAt(t, 1);
    }
    StripUnchangedIff(t);
  }

  /** Worked case: `1.fc34.1` strips to `1.1`; the text after the dist tag is kept. */
  lemma StripInnerExample()
    ensures Strip("1.fc34.1") == "1.1"
  {
    var a, b := "1.fc34", ".1";
    StripFcExample();
    DotOneUnchanged();
    StripJoin(a, b);
    calc {
      Strip("1.fc34.1");
      { assert a + b == "1.fc34.1"; }
      Strip(a + b);
    }
  }

  /** `1.el9` holds no match: `el` is not followed by `n`. */
  lemma ElNineMatchFree()
    ensures !HasMatch("1.el9")
  {
    var s := "1.el9";
    forall i | 0 <= i < |s|
      ensures !MatchAt(s, i)
    {
      if i + 3 < |s| {
        assert s[i..][3] == s[i + 3];
      }
    }
  }

  /** Worked case: `1.el9` is neither marker and is left alone. */
  lemma StripElExample()
    ensures Strip("1.el9") == "1.el9"
  {
    ElNineMatchFree();
    StripUnchangedIff("1.el9");
  }

  /**
   Because the leading `.` is unescaped, the character in front of a marker
   is dropped whatever it is: two releases that differ only there, such as the
   snapshot hashes in `1.gitafc3` and `1.gitbfc3`, strip to the same text.
   */
  lemma UnescapedDotForgetsLeader(r: seq<char>, x: char, y: char, marker: seq<char>, ds: seq<char>)
    requires !HasMatch(r)
    requires x != '\n' && !IsMarkerChar(x) && y != '\n' && !IsMarkerChar(y)
    requires marker == "fc" || marker == "eln"
    requires AllDigits(ds)
    ensures Strip(r + [x] + marker + ds) == Strip(r + [y] + marker + ds) == r
  {
    assert r + [x] + marker + ds == r + ([x] + marker + ds);
    assert r + [y] + marker + ds == r + ([y] + marker + ds);
    StripWholeMatch(x, marker, ds);
    StripMatchFreePrefix(r, [x] + marker + ds);
    StripWholeMatch(y, marker, ds);
    StripMatchFreePrefix(r, [y] + marker + ds);
  }
}

=== FILE: eln_check.dfy ===
/**
 The ELN checker's decisions: the Rawhide/ELN difference test, the status
 line and rebuild request chosen for each package in its two main loops, and
 the counters of the status webpage.  Koji queries are the `Infra`
 parameter; files and logging are replaced by the lists they would receive.
 */
module ElnCheck {
  import opened Wrappers
  import opened Builds
  import opened Policy

  /** The ELN tag name. */
  const ElnTag := "eln"

  /** The text standing for a missing ELN build in a status line. */
  const NoBuild := "NONE"

  /** `diff_with_rawhide`'s difference tuple `(package, rawhide_build, eln_build)`. */
  datatype Diff = Diff(package: string, rawhide: Build, eln: Option<Build>)

  /**
   `diff_with_rawhide`: when no ELN build is given, the latest ELN build is
   looked up; without one, the difference is `(package, rawhide, None)`.
   With one, there is a difference exactly when the Rawhide key is strictly
   higher; an equal or newer ELN build gives no difference.
   */
  function DiffWithRawhide(infra: Infra, cmp: LabelCompare, package: string,
                           elnBuild: Option<Build>, rawhide: Build): (r: Option<Diff>)
    ensures var eln := if elnBuild != None then elnBuild else LatestTagged(infra, ElnTag, package);
            && (eln == None ==> r == Some(Diff(package, rawhide, None)))
            && (eln != None ==> (r != None <==> IsHigher(cmp, EvrOf(rawhide), EvrOf(eln.value))))
            && (eln != None && r != None ==> r == Some(Diff(package, rawhide, eln)))
  {
    var eln := if elnBuild != None then elnBuild else LatestTagged(infra, ElnTag, package);
    if eln == None then Some(Diff(package, rawhide, None))
    else if IsHigher(cmp, EvrOf(rawhide), EvrOf(eln.value)) then Some(Diff(package, rawhide, eln))
    else None
  }

  /** What a loop decides for a package that gets a status line. */
  datatype Decision = Decision(status: string, elnNvr: string, queue: bool)

  /**
   The first loop, over the ELN builds (a package with a Rawhide build, not
   excluded): a difference gives OLD and queues the Rawhide build unless the
   package is on hold; no difference gives SAME.  The ELN build is always
   present there, so the NONE branch is never taken.
   */
  function ElnLoopDecision(infra: Infra, cmp: LabelCompare, rawhide: Build, eln: Build, held: bool): (d: Decision)
    ensures d.status == "OLD" <==> IsHigher(cmp, EvrOf(rawhide), EvrOf(eln))
    ensures d.status == "SAME" <==> !IsHigher(cmp, EvrOf(rawhide), EvrOf(eln))
    ensures d.status != NoBuild
    ensures d.elnNvr == eln.nvr
    ensures d.queue <==> d.status == "OLD" && !held
  {
    var diff := DiffWithRawhide(infra, cmp, eln.name, Some(eln), rawhide);
    var status := if diff != None then (if diff.value.eln != None then "OLD" else NoBuild) else "SAME";
    Decision(status, eln.nvr, diff != None && !held)
  }

  /**
   The second loop, over the content list (a package not yet handled, not
   excluded, with a Rawhide build): no ELN build gives NONE with the ELN nvr
   "NONE" and queues the Rawhide build unless the package is on hold; an ELN
   build gives OLD or SAME as in the first loop but queues nothing.
   */
  function ContentLoopDecision(infra: Infra, cmp: LabelCompare, package: string,
                               rawhide: Build, eln: Option<Build>, held: bool): (d: Decision)
    ensures eln == None ==> d == Decision(NoBuild, NoBuild, !held)
    ensures eln != None ==> && d.elnNvr == eln.value.nvr
                            && !d.queue
                            && (d.status == "OLD" <==> IsHigher(cmp, EvrOf(rawhide), EvrOf(eln.value)))
                            && (d.status == "SAME" <==> !IsHigher(cmp, EvrOf(rawhide), EvrOf(eln.value)))
  {
    if eln == None then Decision(NoBuild, NoBuild, !held)
    else
      var diff := DiffWithRawhide(infra, cmp, package, eln, rawhide);
      if diff != None then
        if diff.value.eln != None then Decision("OLD", eln.value.nvr, false)
        else Decision(NoBuild, NoBuild, false)
      else Decision("SAME", eln.value.nvr, false)
  }

  /** One line of the status file: `name status rawhide_nvr eln_nvr`. */
  datatype StatusLine = StatusLine(name: string, status: string, rawhideNvr: string, elnNvr: string)

  /** A rebuild request: the Rawhide build id written to the rebuild file, with the package it was queued for. */
  datatype Queued = Queued(package: string, buildId: int)

  /**
   What the two loops accumulate: the difference counter, `packages_done`,
   the rebuild file, the status file and the untag file.
   */
  datatype RunState = RunState(
    counter: nat,
    done: seq<string>,
    rebuild: seq<Queued>,
    lines: seq<StatusLine>,
    untag: seq<string>)

  /** The state before the loops: all lists empty, counter 0. */
  const Start := RunState(0, [], [], [], [])

  /** The package's latest Rawhide build (`get_build(package, rawhide)`). */
  function RawhideOf(infra: Infra, rawhideTag: string, package: string): Option<Build> {
    LatestTagged(infra, rawhideTag, package)
  }

  /** The status line written for a decision: `package status rawhide_nvr eln_nvr`. */
  function LineOf(package: string, rawhide: Build, d: Decision): StatusLine {
    StatusLine(package, d.status, rawhide.nvr, d.elnNvr)
  }

  /** The rebuild requests written for a decision: the Rawhide build id when it says to queue, nothing otherwise. */
  function RequestsOf(package: string, rawhide: Build, d: Decision): seq<Queued> {
    if d.queue then [Queued(package, rawhide.buildId)] else []
  }

  /** Record a decision: write the status line, mark the package done, queue the Rawhide build if decided. */
  function Record(st: RunState, package: string, rawhide: Build, d: Decision): RunState {
    var queued := RequestsOf(package, rawhide, d);
    RunState(
      st.counter + |queued|,
      st.done + [package],
      st.rebuild + queued,
      st.lines + [LineOf(package, rawhide, d)],
      st.untag)
  }

  /** One pass of the first loop, for one ELN build. */
  function ElnStep(infra: Infra, rawhideTag: string, overall: seq<string>, cmp: LabelCompare,
                   st: RunState, eln: Build): RunState
  {
    var name := eln.name;
    var st := if name !in overall then st.(untag := st.untag + [name]) else st;
    if IsExcluded(name) then st.(done := st.done + [name])
    else
      var rawhide := RawhideOf(infra, rawhideTag, name);
      if rawhide == None then st.(done := st.done + [name])
      else Record(st, name, rawhide.value, ElnLoopDecision(infra, cmp, rawhide.value, eln, IsOnHold(name)))
  }

  /** One pass of the second loop, for one package of the content list. */
  function ContentStep(infra: Infra, rawhideTag: string, cmp: LabelCompare,
                       st: RunState, package: string): RunState
  {
    if package in st.done then st
    else if IsExcluded(package) then st.(done := st.done + [package])
    else
      var rawhide := RawhideOf(infra, rawhideTag, package);
      if rawhide == None then st.(done := st.done + [package])
      else
        var eln := LatestTagged(infra, ElnTag, package);
        Record(st, package, rawhide.value,
               ContentLoopDecision(infra, cmp, package, rawhide.value, eln, IsOnHold(package)))
  }

  /** A package that gets a status line: not excluded, with a Rawhide build. */
  predicate Eligible(infra: Infra, rawhideTag: string, package: string) {
    !IsExcluded(package) && RawhideOf(infra, rawhideTag, package) != None
  }

  /** The first loop's decision for an eligible ELN build. */
  function ElnDecision(infra: Infra, rawhideTag: string, cmp: LabelCompare, eln: Build): Decision
    requires Eligible(infra, rawhideTag, eln.name)
  {
    ElnLoopDecision(infra, cmp, RawhideOf(infra, rawhideTag, eln.name).value, eln, IsOnHold(eln.name))
  }

  /** The second loop's decision for an eligible package, from its latest ELN build if any. */
  function ContentDecision(infra: Infra, rawhideTag: string, cmp: LabelCompare, package: string): Decision
    requires Eligible(infra, rawhideTag, package)
  {
    ContentLoopDecision(infra, cmp, package, RawhideOf(infra, rawhideTag, package).value,
                        LatestTagged(infra, ElnTag, package), IsOnHold(package))
  }

  /** The line the first loop writes for an eligible ELN build. */
  function ElnLine(infra: Infra, rawhideTag: string, cmp: LabelCompare, eln: Build): StatusLine
    requires Eligible(infra, rawhideTag, eln.name)
  {
    LineOf(eln.name, RawhideOf(infra, rawhideTag, eln.name).value, ElnDecision(infra, rawhideTag, cmp, eln))
  }

  /** The line the second loop writes for an eligible package. */
  function ContentLine(infra: Infra, rawhideTag: string, cmp: LabelCompare, package: string): StatusLine
    requires Eligible(infra, rawhideTag, package)
  {
    LineOf(package, RawhideOf(infra, rawhideTag, package).value, ContentDecision(infra, rawhideTag, cmp, package))
  }

  /** The rebuild request for a package: the id of its Rawhide build. */
  function RequestFor(infra: Infra, rawhideTag: string, package: string): Queued
    requires RawhideOf(infra, rawhideTag, package) != None
  {
    Queued(package, RawhideOf(infra, rawhideTag, package).value.buildId)
  }

  /** What the first loop writes, in listing order: one line per eligible ELN build. */
  function ElnLines(infra: Infra, rawhideTag: string, cmp: LabelCompare, builds: seq<Build>): seq<StatusLine> {
    if builds == [] then []
    else
      var b := builds[0];
      (if Eligible(infra, rawhideTag, b.name) then [ElnLine(infra, rawhideTag, cmp, b)] else [])
      + ElnLines(infra, rawhideTag, cmp, builds[1..])
  }

  /** What the first loop queues, in listing order: the eligible ELN builds whose decision says to queue. */
  function ElnRequests(infra: Infra, rawhideTag: string, cmp: LabelCompare, builds: seq<Build>): seq<Queued> {
    if builds == [] then []
    else
      var b := builds[0];
      (if Eligible(infra, rawhideTag, b.name) && ElnDecision(infra, rawhideTag, cmp, b).queue
       then [RequestFor(infra, rawhideTag, b.name)] else [])
      + ElnRequests(infra, rawhideTag, cmp, builds[1..])
  }

  /** What the second loop writes: one line per eligible package not yet done, each package at most once. */
  function ContentLines(infra: Infra, rawhideTag: string, cmp: LabelCompare, done: set<string>,
                        packages: seq<string>): seq<StatusLine>
    decreases |packages|
  {
    if packages == [] then []
    else
      var p := packages[0];
      (if p !in done && Eligible(infra, rawhideTag, p) then [ContentLine(infra, rawhideTag, cmp, p)] else [])
      + ContentLines(infra, rawhideTag, cmp, done + {p}, packages[1..])
  }

  /** What the second loop queues: the eligible packages not yet done whose decision says to queue. */
  function ContentRequests(infra: Infra, rawhideTag: string, cmp: LabelCompare, done: set<string>,
                           packages: seq<string>): seq<Queued>
    decreases |packages|
  {
    if packages == [] then []
    else
      var p := packages[0];
      (if p !in done && Eligible(infra, rawhideTag, p) && ContentDecision(infra, rawhideTag, cmp, p).queue
       then [RequestFor(infra, rawhideTag, p)] else [])
      + ContentRequests(infra, rawhideTag, cmp, done + {p}, packages[1..])
  }

  /** The names in a list, as a set. */
  function NameSet(names: seq<string>): set<string> {
    set n | n in names
  }

  /**
   A status line is only written for a package that is not excluded and has
   a Rawhide build, whose nvr it carries, with status SAME, OLD or NONE.
   */
  predicate LineOk(infra: Infra, rawhideTag: string, line: StatusLine) {
    && !IsExcluded(line.name)
    && RawhideOf(infra, rawhideTag, line.name) != None
    && line.rawhideNvr == RawhideOf(infra, rawhideTag, line.name).value.nvr
    && (line.status == "SAME" || line.status == "OLD" || line.status == NoBuild)
  }

  /**
   A rebuild request is only queued for a package that is neither excluded
   nor on hold, with the id of its Rawhide build.
   */
  predicate QueuedOk(infra: Infra, rawhideTag: string, q: Queued) {
    && !IsExcluded(q.package)
    && !IsOnHold(q.package)
    && RawhideOf(infra, rawhideTag, q.package) != None
    && q.buildId == RawhideOf(infra, rawhideTag, q.package).value.buildId
  }

  /** The invariants both loops keep. */
  predicate Sound(infra: Infra, rawhideTag: string, st: RunState) {
    && st.counter == |st.rebuild|
    && (forall k :: 0 <= k < |st.lines| ==> LineOk(infra, rawhideTag, st.lines[k]))
    && (forall k :: 0 <= k < |st.rebuild| ==> QueuedOk(infra, rawhideTag, st.rebuild[k]))
  }

  /** Every package with a status line is marked done, and no package has two lines. */
  predicate Bookkept(st: RunState) {
    && (forall k :: 0 <= k < |st.lines| ==> st.lines[k].name in st.done)
    && (forall i, j :: 0 <= i < j < |st.lines| ==> st.lines[i].name != st.lines[j].name)
  }

  function BuildNames(builds: seq<Build>): (names: seq<string>)
    ensures |names| == |builds|
    ensures forall i :: 0 <= i < |builds| ==> names[i] == builds[i].name
  {
    seq(|builds|, i requires 0 <= i < |builds| => builds[i].name)
  }

  predicate Distinct(names: seq<string>) {
    forall i, j :: 0 <= i < j < |names| ==> names[i] != names[j]
  }

  /** What one pass of the first loop appends: the package to `done`, at most one line (never NONE), and the untag entry. */
  lemma ElnStepTrace(infra: Infra, rawhideTag: string, overall: seq<string>, cmp: LabelCompare,
                     st: RunState, eln: Build)
    ensures var r := ElnStep(infra, rawhideTag, overall, cmp, st, eln);
            && r.done == st.done + [eln.name]
            && |r.lines| <= |st.lines| + 1
            && st.lines <= r.lines
            && (forall k :: |st.lines| <= k < |r.lines| ==> r.lines[k].status != NoBuild)
            && (forall n :: n in r.untag <==> n in st.untag || (n == eln.name && n !in overall))
  {
  }

  /** One pass of the first loop writes the line of the build's decision, and its request when the decision queues. */
  lemma ElnStepWrites(infra: Infra, rawhideTag: string, overall: seq<string>, cmp: LabelCompare,
                      st: RunState, eln: Build)
    ensures var r := ElnStep(infra, rawhideTag, overall, cmp, st, eln);
            && r.lines == st.lines + ElnLines(infra, rawhideTag, cmp, [eln])
            && r.rebuild == st.rebuild + ElnRequests(infra, rawhideTag, cmp, [eln])
  {
    assert [eln][1..] == [];
  }

  /** One pass of the first loop keeps `Sound`. */
  lemma ElnStepSound(infra: Infra, rawhideTag: string, overall: seq<string>, cmp: LabelCompare,
                     st: RunState, eln: Build)
    ensures Sound(infra, rawhideTag, st) ==> Sound(infra, rawhideTag, ElnStep(infra, rawhideTag, overall, cmp, st, eln))
  {
  }

  /** One pass of the first loop keeps `Bookkept` when its package is not done yet. */
  lemma ElnStepBookkept(infra: Infra, rawhideTag: string, overall: seq<string>, cmp: LabelCompare,
                        st: RunState, eln: Build)
    requires Bookkept(st) && eln.name !in st.done
    ensures Bookkept(ElnStep(infra, rawhideTag, overall, cmp, st, eln))
  {
  }

  lemma ContentStepKeeps(infra: Infra, rawhideTag: string, cmp: LabelCompare, st: RunState, package: string)
    ensures var r := ContentStep(infra, rawhideTag, cmp, st, package);
            && r.untag == st.untag
            && (forall n :: n in r.done <==> n in st.done || n == package)
            && st.lines <= r.lines
            && (Bookkept(st) ==> Bookkept(r))
  {
  }

  /** One pass of the second loop keeps `Sound`. */
  lemma ContentStepSound(infra: Infra, rawhideTag: string, cmp: LabelCompare, st: RunState, package: string)
    ensures Sound(infra, rawhideTag, st) ==> Sound(infra, rawhideTag, ContentStep(infra, rawhideTag, cmp, st, package))
  {
  }

  /**
   One pass of the second loop writes the line of the package's decision, and
   its request when the decision queues, unless the package is already done.
   */
  lemma ContentStepWrites(infra: Infra, rawhideTag: string, cmp: LabelCompare, st: RunState, package: string)
    ensures var r := ContentStep(infra, rawhideTag, cmp, st, package);
            && NameSet(r.done) == NameSet(st.done) + {package}
            && r.lines == st.lines + (if package !in st.done && Eligible(infra, rawhideTag, package)
                                      then [ContentLine(infra, rawhideTag, cmp, package)] else [])
            && r.rebuild == st.rebuild + (if package !in st.done && Eligible(infra, rawhideTag, package)
                                             && ContentDecision(infra, rawhideTag, cmp, package).queue
                                          then [RequestFor(infra, rawhideTag, package)] else [])
  {
  }

  /** The first loop, over the ELN builds in listing order. */
  function RunElnLoop(infra: Infra, rawhideTag: string, overall: seq<string>, cmp: LabelCompare,
                      st: RunState, builds: seq<Build>): (r: RunState)
    ensures Sound(infra, rawhideTag, st) ==> Sound(infra, rawhideTag, r)
    ensures r.done == st.done + BuildNames(builds)
    ensures |r.lines| <= |st.lines| + |builds|
    ensures st.lines <= r.lines
    ensures forall k :: |st.lines| <= k < |r.lines| ==> r.lines[k].status != NoBuild
    ensures forall n :: n in r.untag <==> n in st.untag || (n in BuildNames(builds) && n !in overall)
    decreases |builds|
  {
    if builds == [] then st
    else
      var next := ElnStep(infra, rawhideTag, overall, cmp, st, builds[0]);
      ElnStepTrace(infra, rawhideTag, overall, cmp, st, builds[0]);
      ElnStepSound(infra, rawhideTag, overall, cmp, st, builds[0]);
      assert BuildNames(builds) == [builds[0].name] + BuildNames(builds[1..]);
      RunElnLoop(infra, rawhideTag, overall, cmp, next, builds[1..])
  }

  /**
   When the ELN listing names each package once and none of them is done
   yet, the first loop keeps `Bookkept`: no package gets two status lines.
   */
  lemma {:induction false} RunElnLoopBookkept(infra: Infra, rawhideTag: string, overall: seq<string>, cmp: LabelCompare,
                                              st: RunState, builds: seq<Build>)
    requires Bookkept(st) && Distinct(BuildNames(builds))
    requires forall i :: 0 <= i < |builds| ==> builds[i].name !in st.done
    ensures Bookkept(RunElnLoop(infra, rawhideTag, overall, cmp, st, builds))
    decreases |builds|
  {
    if builds != [] {
      var next := ElnStep(infra, rawhideTag, overall, cmp, st, builds[0]);
      ElnStepBookkept(infra, rawhideTag, overall, cmp, st, builds[0]);
      ElnStepTrace(infra, rawhideTag, overall, cmp, st, builds[0]);
      var rest := builds[1..];
      assert Distinct(BuildNames(rest)) by {
        forall i, j | 0 <= i < j < |rest|
          ensures BuildNames(rest)[i] != BuildNames(rest)[j]
        {
          assert BuildNames(builds)[i + 1] != BuildNames(builds)[j + 1];
        }
      }
      forall i | 0 <= i < |rest|
        ensures rest[i].name !in next.done
      {
        assert BuildNames(builds)[0] != BuildNames(builds)[i + 1];
      }
      RunElnLoopBookkept(infra, rawhideTag, overall, cmp, next, rest);
    }
  }

  lemma Assoc<T>(a: seq<T>, b: seq<T>, c: seq<T>)
    ensures a + b + c == a + (b + c)
  {
  }

  /** The lines for a listing are the lines for its first build followed by the lines for the rest. */
  lemma ElnLinesCons(infra: Infra, rawhideTag: string, cmp: LabelCompare, builds: seq<Build>)
    requires builds != []
    ensures ElnLines(infra, rawhideTag, cmp, builds)
            == ElnLines(infra, rawhideTag, cmp, [builds[0]]) + ElnLines(infra, rawhideTag, cmp, builds[1..])
  {
    var b := builds[0];
    var head := if Eligible(infra, rawhideTag, b.name) then [ElnLine(infra, rawhideTag, cmp, b)] else [];
    assert [b][1..] == [];
    assert ElnLines(infra, rawhideTag, cmp, [b]) == head + [];
    assert head + [] == head;
  }

  /** The requests for a listing are the requests for its first build followed by the requests for the rest. */
  lemma ElnRequestsCons(infra: Infra, rawhideTag: string, cmp: LabelCompare, builds: seq<Build>)
    requires builds != []
    ensures ElnRequests(infra, rawhideTag, cmp, builds)
            == ElnRequests(infra, rawhideTag, cmp, [builds[0]]) + ElnRequests(infra, rawhideTag, cmp, builds[1..])
  {
    var b := builds[0];
    var head := if Eligible(infra, rawhideTag, b.name) && ElnDecision(infra, rawhideTag, cmp, b).queue
                then [RequestFor(infra, rawhideTag, b.name)] else [];
    assert [b][1..] == [];
    assert ElnRequests(infra, rawhideTag, cmp, [b]) == head + [];
    assert head + [] == head;
  }

  /** The first loop writes exactly the lines and requests of the ELN builds' decisions, in listing order. */
  lemma {:induction false} RunElnLoopWrites(infra: Infra, rawhideTag: string, overall: seq<string>, cmp: LabelCompare,
                                            st: RunState, builds: seq<Build>)
    ensures var r := RunElnLoop(infra, rawhideTag, overall, cmp, st, builds);
            && r.lines == st.lines + ElnLines(infra, rawhideTag, cmp, builds)
            && r.rebuild == st.rebuild + ElnRequests(infra, rawhideTag, cmp, builds)
    decreases |builds|
  {
    if builds != [] {
      var next := ElnStep(infra, rawhideTag, overall, cmp, st, builds[0]);
      ElnStepWrites(infra, rawhideTag, overall, cmp, st, builds[0]);
      RunElnLoopWrites(infra, rawhideTag, overall, cmp, next, builds[1..]);
      assert RunElnLoop(infra, rawhideTag, overall, cmp, st, builds) == RunElnLoop(infra, rawhideTag, overall, cmp, next, builds[1..]);
      ElnLinesCons(infra, rawhideTag, cmp, builds);
      ElnRequestsCons(infra, rawhideTag, cmp, builds);
      Assoc(st.lines, ElnLines(infra, rawhideTag, cmp, [builds[0]]), ElnLines(infra, rawhideTag, cmp, builds[1..]));
      Assoc(st.rebuild, ElnRequests(infra, rawhideTag, cmp, [builds[0]]), ElnRequests(infra, rawhideTag, cmp, builds[1..]));
    }
  }

  /** The second loop, over the content list; packages already done are skipped. */
  function RunContentLoop(infra: Infra, rawhideTag: string, cmp: LabelCompare,
                          st: RunState, packages: seq<string>): (r: RunState)
    ensures Sound(infra, rawhideTag, st) ==> Sound(infra, rawhideTag, r)
    ensures Bookkept(st) ==> Bookkept(r)
    ensures r.untag == st.untag
    ensures forall n :: n in r.done <==> n in st.done || n in packages
    ensures st.lines <= r.lines
    decreases |packages|
  {
    if packages == [] then st
    else
      var next := ContentStep(infra, rawhideTag, cmp, st, packages[0]);
      ContentStepKeeps(infra, rawhideTag, cmp, st, packages[0]);
      ContentStepSound(infra, rawhideTag, cmp, st, packages[0]);
      RunContentLoop(infra, rawhideTag, cmp, next, packages[1..])
  }

  /**
   The second loop writes exactly the lines and requests of the decisions for
   the packages not yet done, each package once, in list order.
   */
  lemma {:induction false} RunContentLoopWrites(infra: Infra, rawhideTag: string, cmp: LabelCompare,
                                                st: RunState, packages: seq<string>)
    ensures var r := RunContentLoop(infra, rawhideTag, cmp, st, packages);
            && r.lines == st.lines + ContentLines(infra, rawhideTag, cmp, NameSet(st.done), packages)
            && r.rebuild == st.rebuild + ContentRequests(infra, rawhideTag, cmp, NameSet(st.done), packages)
    decreases |packages|
  {
    if packages != [] {
      var p := packages[0];
      var next := ContentStep(infra, rawhideTag, cmp, st, p);
      var line := if p !in st.done && Eligible(infra, rawhideTag, p)
                  then [ContentLine(infra, rawhideTag, cmp, p)] else [];
      var request := if p !in st.done && Eligible(infra, rawhideTag, p) && ContentDecision(infra, rawhideTag, cmp, p).queue
                     then [RequestFor(infra, rawhideTag, p)] else [];
      ContentStepWrites(infra, rawhideTag, cmp, st, p);
      assert p in NameSet(st.done) <==> p in st.done;
      RunContentLoopWrites(infra, rawhideTag, cmp, next, packages[1..]);
      assert RunContentLoop(infra, rawhideTag, cmp, st, packages) == RunContentLoop(infra, rawhideTag, cmp, next, packages[1..]);
      assert ContentLines(infra, rawhideTag, cmp, NameSet(st.done), packages)
             == line + ContentLines(infra, rawhideTag, cmp, NameSet(next.done), packages[1..]);
      assert ContentRequests(infra, rawhideTag, cmp, NameSet(st.done), packages)
             == request + ContentRequests(infra, rawhideTag, cmp, NameSet(next.done), packages[1..]);
      Assoc(st.lines, line, ContentLines(infra, rawhideTag, cmp, NameSet(next.done), packages[1..]));
      Assoc(st.rebuild, request, ContentRequests(infra, rawhideTag, cmp, NameSet(next.done), packages[1..]));
    }
  }

  /**
   The main block: the first loop over the ELN tag's latest builds, then the
   second over the content list (`overall` is the package set in iteration
   order).
   */
  function Run(infra: Infra, rawhideTag: string, overall: seq<string>, cmp: LabelCompare): (r: RunState)
    ensures Sound(infra, rawhideTag, r)
    ensures forall n :: n in r.done <==> n in BuildNames(infra(ElnTag, None)) || n in overall
    ensures Distinct(BuildNames(infra(ElnTag, None))) ==> Bookkept(r)
  {
    var builds := infra(ElnTag, None);
    var st := RunElnLoop(infra, rawhideTag, overall, cmp, Start, builds);
    assert Distinct(BuildNames(builds)) ==> Bookkept(st) by {
      if Distinct(BuildNames(builds)) {
        RunElnLoopBookkept(infra, rawhideTag, overall, cmp, Start, builds);
      }
    }
    RunContentLoop(infra, rawhideTag, cmp, st, overall)
  }

  /** The first loop's lines are exactly those of its eligible ELN builds. */
  lemma {:induction false} ElnLinesMembers(infra: Infra, rawhideTag: string, cmp: LabelCompare, builds: seq<Build>)
    ensures forall i :: 0 <= i < |builds| && Eligible(infra, rawhideTag, builds[i].name)
              ==> ElnLine(infra, rawhideTag, cmp, builds[i]) in ElnLines(infra, rawhideTag, cmp, builds)
    ensures forall l :: l in ElnLines(infra, rawhideTag, cmp, builds)
              ==> exists i :: 0 <= i < |builds| && Eligible(infra, rawhideTag, builds[i].name)
                              && l == ElnLine(infra, rawhideTag, cmp, builds[i])
    decreases |builds|
  {
    if builds != [] {
      var rest := builds[1..];
      ElnLinesCons(infra, rawhideTag, cmp, builds);
      ElnLinesMembers(infra, rawhideTag, cmp, rest);
      forall i | 1 <= i < |builds|
        ensures builds[i] == rest[i - 1]
      {
      }
      forall l | l in ElnLines(infra, rawhideTag, cmp, rest)
        ensures exists i :: 0 <= i < |builds| && Eligible(infra, rawhideTag, builds[i].name)
                            && l == ElnLine(infra, rawhideTag, cmp, builds[i])
      {
        var j :| 0 <= j < |rest| && Eligible(infra, rawhideTag, rest[j].name) && l == ElnLine(infra, rawhideTag, cmp, rest[j]);
        assert rest[j] == builds[j + 1];
      }
    }
  }

  /** The first loop's requests are exactly those of its eligible ELN builds whose decision queues. */
  lemma ElnRequestsMembers(infra: Infra, rawhideTag: string, cmp: LabelCompare, builds: seq<Build>)
    ensures forall i :: 0 <= i < |builds| && Eligible(infra, rawhideTag, builds[i].name)
                        && ElnDecision(infra, rawhideTag, cmp, builds[i]).queue
              ==> RequestFor(infra, rawhideTag, builds[i].name) in ElnRequests(infra, rawhideTag, cmp, builds)
    ensures forall q :: q in ElnRequests(infra, rawhideTag, cmp, builds)
              ==> exists i :: 0 <= i < |builds| && Eligible(infra, rawhideTag, builds[i].name)
                              && ElnDecision(infra, rawhideTag, cmp, builds[i]).queue
                              && q == RequestFor(infra, rawhideTag, builds[i].name)
  {
    ElnRequestsCover(infra, rawhideTag, cmp, builds);
    ElnRequestsOnly(infra, rawhideTag, cmp, builds);
  }

  lemma {:induction false} ElnRequestsCover(infra: Infra, rawhideTag: string, cmp: LabelCompare, builds: seq<Build>)
    ensures forall i :: 0 <= i < |builds| && Eligible(infra, rawhideTag, builds[i].name)
                        && ElnDecision(infra, rawhideTag, cmp, builds[i]).queue
              ==> RequestFor(infra, rawhideTag, builds[i].name) in ElnRequests(infra, rawhideTag, cmp, builds)
    decreases |builds|
  {
    if builds != [] {
      var rest := builds[1..];
      ElnRequestsCons(infra, rawhideTag, cmp, builds);
      ElnRequestsCover(infra, rawhideTag, cmp, rest);
      forall i | 1 <= i < |builds|
        ensures builds[i] == rest[i - 1]
      {
      }
    }
  }

  lemma {:induction false} ElnRequestsOnly(infra: Infra, rawhideTag: string, cmp: LabelCompare, builds: seq<Build>)
    ensures forall q :: q in ElnRequests(infra, rawhideTag, cmp, builds)
              ==> exists i :: 0 <= i < |builds| && Eligible(infra, rawhideTag, builds[i].name)
                              && ElnDecision(infra, rawhideTag, cmp, builds[i]).queue
                              && q == RequestFor(infra, rawhideTag, builds[i].name)
    decreases |builds|
  {
    if builds != [] {
      var rest := builds[1..];
      ElnRequestsCons(infra, rawhideTag, cmp, builds);
      ElnRequestsOnly(infra, rawhideTag, cmp, rest);
      forall q | q in ElnRequests(infra, rawhideTag, cmp, rest)
        ensures exists i :: 0 <= i < |builds| && Eligible(infra, rawhideTag, builds[i].name)
                            && ElnDecision(infra, rawhideTag, cmp, builds[i]).queue
                            && q == RequestFor(infra, rawhideTag, builds[i].name)
      {
        var j :| 0 <= j < |rest| && Eligible(infra, rawhideTag, rest[j].name)
                 && ElnDecision(infra, rawhideTag, cmp, rest[j]).queue
                 && q == RequestFor(infra, rawhideTag, rest[j].name);
        assert rest[j] == builds[j + 1];
      }
    }
  }

  /** The second loop's lines are exactly those of the eligible packages not done before it, one per package. */
  lemma {:induction false} ContentLinesMembers(infra: Infra, rawhideTag: string, cmp: LabelCompare,
                                               done: set<string>, packages: seq<string>)
    ensures forall p :: p in packages && p !in done && Eligible(infra, rawhideTag, p)
              ==> ContentLine(infra, rawhideTag, cmp, p) in ContentLines(infra, rawhideTag, cmp, done, packages)
    ensures forall l :: l in ContentLines(infra, rawhideTag, cmp, done, packages)
              ==> && l.name in packages && l.name !in done && Eligible(infra, rawhideTag, l.name)
                  && l == ContentLine(infra, rawhideTag, cmp, l.name)
    decreases |packages|
  {
    if packages != [] {
      var p0 := packages[0];
      var rest := packages[1..];
      var head := if p0 !in done && Eligible(infra, rawhideTag, p0) then [ContentLine(infra, rawhideTag, cmp, p0)] else [];
      assert ContentLines(infra, rawhideTag, cmp, done, packages)
             == head + ContentLines(infra, rawhideTag, cmp, done + {p0}, rest);
      ContentLinesMembers(infra, rawhideTag, cmp, done + {p0}, rest);
      forall p | p in packages && p != p0
        ensures p in rest
      {
      }
    }
  }

  /** The second loop's requests are exactly those of the eligible packages not done before it whose decision queues. */
  lemma {:induction false} ContentRequestsMembers(infra: Infra, rawhideTag: string, cmp: LabelCompare,
                                                  done: set<string>, packages: seq<string>)
    ensures forall p :: p in packages && p !in done && Eligible(infra, rawhideTag, p)
                        && ContentDecision(infra, rawhideTag, cmp, p).queue
              ==> RequestFor(infra, rawhideTag, p) in ContentRequests(infra, rawhideTag, cmp, done, packages)
    ensures forall q :: q in ContentRequests(infra, rawhideTag, cmp, done, packages)
              ==> && q.package in packages && q.package !in done && Eligible(infra, rawhideTag, q.package)
                  && ContentDecision(infra, rawhideTag, cmp, q.package).queue
                  && q == RequestFor(infra, rawhideTag, q.package)
    decreases |packages|
  {
    if packages != [] {
      var p0 := packages[0];
      var rest := packages[1..];
      var head := if p0 !in done && Eligible(infra, rawhideTag, p0) && ContentDecision(infra, rawhideTag, cmp, p0).queue
                  then [RequestFor(infra, rawhideTag, p0)] else [];
      assert ContentRequests(infra, rawhideTag, cmp, done, packages)
             == head + ContentRequests(infra, rawhideTag, cmp, done + {p0}, rest);
      ContentRequestsMembers(infra, rawhideTag, cmp, done + {p0}, rest);
      forall p | p in packages && p != p0
        ensures p in rest
      {
      }
    }
  }

  /**
   A run writes the first loop's lines and requests for the ELN listing, then
   the second loop's for the content packages outside that listing.
   */
  lemma RunOutput(infra: Infra, rawhideTag: string, overall: seq<string>, cmp: LabelCompare)
    ensures var builds := infra(ElnTag, None);
            var r := Run(infra, rawhideTag, overall, cmp);
            && r.lines == ElnLines(infra, rawhideTag, cmp, builds)
                          + ContentLines(infra, rawhideTag, cmp, NameSet(BuildNames(builds)), overall)
            && r.rebuild == ElnRequests(infra, rawhideTag, cmp, builds)
                            + ContentRequests(infra, rawhideTag, cmp, NameSet(BuildNames(builds)), overall)
  {
    var builds := infra(ElnTag, None);
    var st := RunElnLoop(infra, rawhideTag, overall, cmp, Start, builds);
    RunElnLoopWrites(infra, rawhideTag, overall, cmp, Start, builds);
    RunContentLoopWrites(infra, rawhideTag, cmp, st, overall);
    assert NameSet(st.done) == NameSet(BuildNames(builds));
    assert Run(infra, rawhideTag, overall, cmp) == RunContentLoop(infra, rawhideTag, cmp, st, overall);
    assert st.lines == ElnLines(infra, rawhideTag, cmp, builds);
    assert st.rebuild == ElnRequests(infra, rawhideTag, cmp, builds);
  }

  /**
   Every status line of a run is the decision of the loop that handled its
   package, and every eligible package gets one: an eligible ELN build gets
   the first loop's line; an eligible package of the content list that has no
   ELN build in the listing gets the second loop's line.
   */
  lemma RunLines(infra: Infra, rawhideTag: string, overall: seq<string>, cmp: LabelCompare)
    ensures var builds := infra(ElnTag, None);
            var r := Run(infra, rawhideTag, overall, cmp);
            && (forall i :: 0 <= i < |builds| && Eligible(infra, rawhideTag, builds[i].name)
                  ==> ElnLine(infra, rawhideTag, cmp, builds[i]) in r.lines)
            && (forall p :: p in overall && p !in BuildNames(builds) && Eligible(infra, rawhideTag, p)
                  ==> ContentLine(infra, rawhideTag, cmp, p) in r.lines)
            && (forall l :: l in r.lines
                  ==> || (exists i :: 0 <= i < |builds| && Eligible(infra, rawhideTag, builds[i].name)
                                      && l == ElnLine(infra, rawhideTag, cmp, builds[i]))
                      || (&& l.name in overall && l.name !in BuildNames(builds) && Eligible(infra, rawhideTag, l.name)
                          && l == ContentLine(infra, rawhideTag, cmp, l.name)))
  {
    var builds := infra(ElnTag, None);
    RunOutput(infra, rawhideTag, overall, cmp);
    ElnLinesMembers(infra, rawhideTag, cmp, builds);
    ContentLinesMembers(infra, rawhideTag, cmp, NameSet(BuildNames(builds)), overall);
  }

  /**
   Every rebuild request of a run comes from a decision that queues, and every
   such decision is queued: the first loop's for an eligible ELN build, the
   second loop's for an eligible content package with no ELN build in the
   listing.
   */
  lemma RunRequests(infra: Infra, rawhideTag: string, overall: seq<string>, cmp: LabelCompare)
    ensures var builds := infra(ElnTag, None);
            var r := Run(infra, rawhideTag, overall, cmp);
            && (forall i :: 0 <= i < |builds| && Eligible(infra, rawhideTag, builds[i].name)
                            && ElnDecision(infra, rawhideTag, cmp, builds[i]).queue
                  ==> RequestFor(infra, rawhideTag, builds[i].name) in r.rebuild)
            && (forall p :: p in overall && p !in BuildNames(builds) && Eligible(infra, rawhideTag, p)
                            && ContentDecision(infra, rawhideTag, cmp, p).queue
                  ==> RequestFor(infra, rawhideTag, p) in r.rebuild)
            && (forall q :: q in r.rebuild
                  ==> || (exists i :: 0 <= i < |builds| && Eligible(infra, rawhideTag, builds[i].name)
                                      && ElnDecision(infra, rawhideTag, cmp, builds[i]).queue
                                      && q == RequestFor(infra, rawhideTag, builds[i].name))
                      || (&& q.package in overall && q.package !in BuildNames(builds)
                          && Eligible(infra, rawhideTag, q.package)
                          && ContentDecision(infra, rawhideTag, cmp, q.package).queue
                          && q == RequestFor(infra, rawhideTag, q.package)))
  {
    var builds := infra(ElnTag, None);
    RunOutput(infra, rawhideTag, overall, cmp);
    ElnRequestsMembers(infra, rawhideTag, cmp, builds);
    ContentRequestsMembers(infra, rawhideTag, cmp, NameSet(BuildNames(builds)), overall);
  }

  /** Number of lines whose status text is `status`. */
  function CountStatus(lines: seq<StatusLine>, status: string): (n: nat)
    ensures n <= |lines|
  {
    if lines == [] then 0
    else CountStatus(lines[..|lines| - 1], status) + (if lines[|lines| - 1].status == status then 1 else 0)
  }

  /**
   The webpage counters: SAME and OLD lines are counted as such, every other
   status as "none", so the three add up to the number of lines.
   */
  method WebpageCounters(lines: seq<StatusLine>) returns (counterSame: nat, counterOld: nat, counterNone: nat)
    ensures counterSame == CountStatus(lines, "SAME")
    ensures counterOld == CountStatus(lines, "OLD")
    ensures counterSame + counterOld + counterNone == |lines|
  {
    counterSame, counterOld, counterNone := 0, 0, 0;
    for i := 0 to |lines|
      invariant counterSame == CountStatus(lines[..i], "SAME")
      invariant counterOld == CountStatus(lines[..i], "OLD")
      invariant counterSame + counterOld + counterNone == i
    {
      assert lines[..i + 1][..i] == lines[..i];
      if lines[i].status == "SAME" {
        counterSame := counterSame + 1;
      } else if lines[i].status == "OLD" {
        counterOld := counterOld + 1;
      } else {
        counterNone := counterNone + 1;
      }
    }
    assert lines[..|lines|] == lines;
  }

  /** A share of the total: `Unknown` stands for the text "?%" written when the total is zero, `Ratio` for the share formatted as "{:.2%}". */
  datatype Percent = Unknown | Ratio(part: nat, total: nat)

  function PercentOf(part: nat, total: nat): (p: Percent)
    ensures p == Unknown <==> total == 0
    ensures p != Unknown ==> p.total == total && p.part == part
  {
    if total == 0 then Unknown else Ratio(part, total)
  }

  /** The webpage summary of a status file. */
  datatype Summary = Summary(counterSame: nat, counterOld: nat, counterNone: nat, total: nat,
                             percentSame: Percent, percentOld: Percent, percentNone: Percent)

  method Summarize(lines: seq<StatusLine>) returns (s: Summary)
    ensures s.total == |lines| == s.counterSame + s.counterOld + s.counterNone
    ensures s.counterSame == CountStatus(lines, "SAME") && s.counterOld == CountStatus(lines, "OLD")
    ensures s.percentSame == Unknown <==> lines == []
    ensures lines == [] ==> s.percentOld == Unknown && s.percentNone == Unknown
    ensures lines != [] ==> && s.percentSame == Ratio(s.counterSame, |lines|)
                            && s.percentOld == Ratio(s.counterOld, |lines|)
                            && s.percentNone == Ratio(s.counterNone, |lines|)
  {
    var counterSame, counterOld, counterNone := WebpageCounters(lines);
    var total := counterSame + counterOld + counterNone;
    s := Summary(counterSame, counterOld, counterNone, total, PercentOf(counterSame, total), PercentOf(counterOld, total), PercentOf(counterNone, total));
  }
}

=== FILE: policy.dfy ===
/**
 The rebuild-automation policy of the ELN checker: the permanent exclusion
 list, the temporary hold list, and the nvr trimming helper.
 */
module Policy {

  /** Exact names permanently excluded from rebuild automation. */
  const Excludes: seq<string> := ["kernel", "kernel-headers", "kernel-tools", "ipa", "shim"]

  /** Name prefixes permanently excluded from rebuild automation. */
  const ExcludePrefixes: seq<string> := ["shim-"]

  /** Exact names temporarily held back from rebuild automation. */
  const Hold: seq<string> := ["freeipa"]

  /** Name prefixes temporarily held back (none at present). */
  const HoldPrefixes: seq<string> := []

  /** `package.startswith(prefix)` for some prefix of the list, scanned in order. */
  function StartsWithAny(prefixes: seq<string>, package: string): (r: bool)
    ensures r <==> exists i :: 0 <= i < |prefixes| && prefixes[i] <= package
    decreases |prefixes|
  {
    if prefixes == [] then false
    else if prefixes[0] <= package then true
    else
      assert forall i :: 1 <= i < |prefixes| ==> prefixes[1..][i - 1] == prefixes[i];
      StartsWithAny(prefixes[1..], package)
  }

  /** `is_excluded`: the package is on the exclusion list or starts with `shim-`. */
  function IsExcluded(package: string): (r: bool)
    ensures r <==> || package == "kernel" || package == "kernel-headers" || package == "kernel-tools"
                   || package == "ipa" || package == "shim"
                   || (|package| >= 5 && package[..5] == "shim-")
  {
    package in Excludes || StartsWithAny(ExcludePrefixes, package)
  }

  /** `is_on_hold`: with an empty prefix list, only `freeipa` is on hold. */
  function IsOnHold(package: string): (r: bool)
    ensures r <==> package == "freeipa"
  {
    package in Hold || StartsWithAny(HoldPrefixes, package)
  }

  /**
   The packages written to the buildable list: those neither on hold nor
   excluded, in the order of the package list.
   */
  function Buildable(packages: seq<string>): (r: seq<string>)
    ensures forall p :: p in r <==> p in packages && !IsOnHold(p) && !IsExcluded(p)
    ensures |r| <= |packages|
  {
    if packages == [] then []
    else
      var rest := Buildable(packages[1..]);
      assert forall p :: p in packages <==> p == packages[0] || p in packages[1..];
      if !IsOnHold(packages[0]) && !IsExcluded(packages[0]) then [packages[0]] + rest else rest
  }

  /** Index of the last `.` in `s`, if any. */
  function LastDot(s: string): (r: int)
    ensures -1 <= r < |s|
    ensures r >= 0 ==> s[r] == '.'
    ensures forall k :: r < k < |s| ==> s[k] != '.'
  {
    if s == [] then -1
    else if s[|s| - 1] == '.' then |s| - 1
    else LastDot(s[..|s| - 1])
  }

  /**
   `no_dist_nvr`: `nvr.rsplit(".", 1)[0]`, the nvr up to (not including) its
   last `.`, or the whole nvr when it has no `.`.
   */
  function NoDistNvr(nvr: string): (r: string)
    ensures '.' !in nvr ==> r == nvr
    ensures '.' in nvr ==> |r| < |nvr| && r == nvr[..|r|] && nvr[|r|] == '.' && '.' !in nvr[|r| + 1..]
  {
    var i := LastDot(nvr);
    if i < 0 then nvr else nvr[..i]
  }

  /** Splitting at the last dot is undone by putting the dot and the dot-free tail back. */
  lemma NoDistNvrRoundTrip(r: string, tail: string)
    requires '.' !in tail
    ensures NoDistNvr(r + "." + tail) == r
  {
    var nvr := r + "." + tail;
    assert nvr[|r|] == '.';
    assert forall k :: |r| < k < |nvr| ==> nvr[k] == tail[k - |r| - 1];
  }
}

=== FILE: wrappers.dfy ===
/** Optional values: the model's stand-in for Python's `None`. */
module Wrappers {

  datatype Option<+T> = None | Some(value: T)

}
